=== FILE: README.md ===
# nike-chatvrm reply pipeline, modelled in Dafny

nike-chatvrm is a browser chat front end with a VRM avatar. Its one piece of real
logic is the pipeline in `script.js` that turns an AI reply into HTML. That pipeline:

- replaces every ```` ```mermaid ```` block with a diagram container;
- replaces every ```` ```chart ```` block with a canvas, and records the chart's id and payload;
- applies a small Markdown-like formatting: `**bold**` and line breaks;
- then parses each chart payload (`type:`, `labels:`, `data:`, `title:` lines) into a Chart.js configuration;
- registers the drawn chart in the global `chartInstances` map, destroying any chart drawn before under the same canvas id.

Besides the pipeline, the model covers three small helpers:

- the text cleaning applied before speech output;
- the choice of the image-search keyword;
- the voice-input toggle on the `isRecording` flag.

Modules, one per part of the pipeline:

| module | file | what it holds |
|---|---|---|
| `Strings` | strings.dfy | JavaScript string primitives the code relies on: `indexOf`, `trim` with JavaScript's white-space set, `split`, `split(sep)[1]`, a first-occurrence `replace`, and decimal rendering of numbers. |
| `Extract` | extract.dfy | The two global non-greedy block replaces, as a reference function (`Rewrite`, `Matches`), and the imperative replace loops with their counters and the `chartData` list (`ReplaceDiagrams`, `ReplaceCharts`), proved equal to it. |
| `Format` | format.dfy | The `**…**` → `<strong>` replace and the newline → `<br>` replace. |
| `Charts` | chart.dfy | The line-by-line payload parser, its defaults and last-line-wins behaviour. Also the colour palette slice and map, and the configuration passed to the Chart constructor. |
| `Registry` | registry.dfy | Chart instances and the `chartInstances` map, as classes updated in place, and `renderChart`. |
| `Display` | display.dfy | `displayAIMessageWithVisuals` as a whole: the rendered HTML, the chart list, and the drawing of every chart into the registry. |
| `Speech` | speech.dfy | The `cleanText` expression of `speakText`. |
| `Keywords` | keywords.dfy | The keyword split, filter and choice of `fetchRelatedMedia`. |
| `Voice` | voice.dfy | `startVoiceInput` / `stopVoiceInput` as a class whose fields are the page state. |

The environment is handed in as parameters:

| parameter | stands for |
|---|---|
| `ts: nat` | the clock reading `Date.now()` |
| `parse` | `JSON.parse` of an array; `None` where it throws |
| `canvases` | the canvas ids present in the page, which is what `getElementById` finds |
| `accepts` | whether the Chart constructor succeeds on a configuration |

What the code does, which the model keeps:

- Each block is replaced by its HTML directly; no placeholder tokens are used.
- Links in the reply are not turned into anchors.
- Chart colours are sliced from a six-entry palette. A seventh data point gets no colour.
- The newline replace runs over the inserted diagram bodies too, so diagram text reaches the page with `<br>` in place of its newlines (`Display.DiagramReply`).

## Model

| member | source | states |
|---|---|---|
| Strings.IndexOfFrom | script.js:526 | A found index is at or after the start position, and the pattern occurs there. |
| Strings.IndexOfFromIsFirst | script.js:526 | `indexOf` returns the first occurrence at or after the start, and reports none only when there is none. |
| Strings.TrimSpec | script.js:515 | `trim` keeps an infix, removes only JavaScript white space from both ends, leaves no white space at either end, and leaves a string with none at its ends unchanged. |
| Strings.SplitOnSpec | script.js:515 | `split('\n')`: no piece contains the separator, and joining the pieces with it gives back the string. |
| Strings.SecondFieldSpec | script.js:524 | `split(sep)[1]` runs from the end of the first separator up to the next separator or the end of the string. It contains no separator. |
| Strings.ReplaceFirst | script.js:560 | A string-pattern `replace` keeps the text before the first occurrence, puts the replacement in its place and keeps the text after it. It returns the string unchanged when the pattern does not occur. |
| Strings.ParseDecOfDec | script.js:469 | The decimal rendering of a number in an id reads back as that number. |
| Strings.DecInjective | script.js:469 | Different numbers render as different decimal strings. |
| Extract.BlockIdInjective | script.js:469 | Two ids `<kind>-<ts>-<k>` with the same clock reading are equal only when their counters are. |
| Extract.FenceAtSpec | script.js:465 | A block matches at a position exactly when its opening marker, newline included, stands there and a later fence exists. The body then ends at the first such fence. |
| Extract.MatchesOrdered | script.js:468-471 | The matches of a global replace are in source order and do not overlap. |
| Extract.MatchesAreBlocks | script.js:465 | Each match is a real block, whose body ends at the first fence after its opening marker (non-greedy). |
| Extract.NoMissedFence | script.js:465-471 | Every position where a block could match lies inside some match: the replace skips no block. |
| Extract.NoMatchesIffNoFence | script.js:465 | The replace finds no match exactly when no block can match anywhere. A marker without its newline or without a later fence is therefore not a match. |
| Extract.UnchangedWithoutMatches | script.js:468 | Text without a match passes the replace unchanged. |
| Extract.RewriteIsSplice | script.js:468-471 | The replace copies the text between matches and puts each match's markup in its place. The k-th match gets counter k. |
| Extract.MarkupsAt | script.js:469-470 | The j-th replacement is the markup of the j-th match, with counter k + j and the match's body. |
| Extract.BodyHasNoFence | script.js:465 | No matched body contains a fence. |
| Extract.ChartItemsAt | script.js:479-480 | The j-th `chartData` entry has id `chart-<ts>-<j>` and the untrimmed body of the j-th chart block. |
| Extract.ChartIdsDistinct | script.js:479-480 | The ids on the chart list are pairwise distinct. |
| Extract.ReplaceDiagrams | script.js:465-471 | The loop with the `mermaidIndex` counter produces the reference rewrite of the diagram blocks. |
| Extract.ReplaceCharts | script.js:474-482 | The loop with the `chartIndex` counter produces the reference rewrite of the chart blocks. The `chartData` list it pushes holds one entry per chart match, in order. |
| Format.Embolden | script.js:486 | Computes the bold replace from a position on. Where the bold pattern matches, the pair becomes `<strong>x</strong>` and the scan resumes after its closing `**`; elsewhere the character is copied. The rows `Format.BoldAtSpec` to `Format.EmboldenUnchanged` state what it does. |
| Format.BoldAtSpec | script.js:486 | The bold pattern matches exactly where `**` is followed, on the same line, by a later `**`. It takes the shortest such match. |
| Format.EmboldenPair | script.js:486 | `**x**`, where `x` has no `*` and no line end, becomes `<strong>x</strong>`. |
| Format.EmboldenPairAcrossLines | script.js:486 | `**x**`, where `x` crosses a line end, is left as it is. |
| Format.EmboldenCopy | script.js:486 | A stretch where the bold pattern matches at no position is copied as it is by the bold replace, wherever it stands in the text. Single stars, as in a `* ` bullet, are copied too. |
| Format.EmboldenPairIn | script.js:486 | Where the text at some position starts with `**x**`, `x` having no line end and no `**` inside the pair, the bold replace turns that pair into `<strong>x</strong>` and goes on after it. Single stars in `x`, as in `**a*b**`, are kept. |
| Format.EmboldenAround | script.js:486 | In a longer text, a stretch with no bold match followed by such a pair becomes the stretch, then `<strong>x</strong>`, then the bold replace of the rest. |
| Format.BulletThenBold | script.js:486 | `* a` on one line and `**b**` on the next: the bullet star is kept and the pair becomes `<strong>b</strong>`. |
| Format.StarInsidePair | script.js:486 | `**a*b**` becomes `<strong>a*b</strong>`: the lazy match runs to the first `**`, not the first `*`. |
| Format.EmboldenUnchanged | script.js:486 | Text without a bold match passes the bold replace unchanged. |
| Format.FormatReply | script.js:485-487 | Computes the formatting chain: the bold replace, then the newline replace. `Format.FormatWithoutStars` and `Format.FormatReplyHasNoNewline` state what it does. |
| Format.FormatWithoutStars | script.js:485-487 | Text without `*` only has its newlines turned into `<br>`. |
| Format.NewlinesToBr | script.js:487 | Computes the newline replace: each newline becomes `<br>`, other characters are copied. The rows `Format.NewlinesToBrHasNoNewline` to `Format.NewlinesToBrLength` state what it does. |
| Format.NewlinesToBrHasNoNewline | script.js:487 | After the newline replace, no newline is left. |
| Format.NewlinesToBrUnchanged | script.js:487 | Text without a newline is unchanged by the newline replace. |
| Format.NewlinesToBrAppend | script.js:487 | The newline replace distributes over concatenation. |
| Format.NewlinesToBrLength | script.js:487 | Each newline adds three characters: the result is as long as the input plus three per newline. |
| Format.FormatReplyHasNoNewline | script.js:485-487 | The formatted text holds no newline. |
| Charts.ClassifyLine | script.js:522-531 | Computes what the `if`/`else if` chain does with one trimmed line: a type, labels, data or title assignment, nothing for an unknown key, or a throw where the array cannot be read. `Charts.TypeLineValue`, `Charts.TitleLineValue`, `Charts.LabelsWithoutBracketFails`, `Charts.DataWithoutBracketFails` and `Charts.UnknownLineIgnored` state what it does. |
| Charts.ParseChart | script.js:515-532 | Computes the parse of a payload: each trimmed line is classified and applied in order to the defaults, and the first throwing line makes it throw. `Charts.ParsePayload`, `Charts.FoldLinesIsFold`, `Charts.FailingLineFails` and `Charts.FoldLastWins` state what it does. |
| Charts.ParsePayload | script.js:515-532 | The line loop, which reassigns `type`, `labels`, `data` and `title` from the defaults and stops at a throwing line, gives the reference parse. |
| Charts.FoldLinesIsFold | script.js:521-532 | The parse throws exactly when some line throws. Otherwise it applies every line's field, in order, to the defaults. |
| Charts.FailingLineFails | script.js:526-528 | One throwing line makes the whole parse throw. |
| Charts.FoldLastWins | script.js:521-532 | Each key ends up with the value of the last line that sets it, or its default when no line does. |
| Charts.UnknownLineIgnored | script.js:521-531 | A line that starts with none of the four keys changes nothing. |
| Charts.LabelsWithoutBracketFails | script.js:525-526 | A `labels:` line with no `[` throws. |
| Charts.DataWithoutBracketFails | script.js:527-528 | A `data:` line with no `[` throws. |
| Charts.TypeLineValue | script.js:523-524 | The type is the text between the first `:` and the next one, trimmed. |
| Charts.TitleLineValue | script.js:529-530 | A `title:` line whose value holds no second `title:` sets the title to the text after `title:`, trimmed. The value may hold colons. |
| Charts.ColorsSpec | script.js:543-560 | There are min(n, 6) background and border colours. Entry i is palette entry i, and its border is the same colour with alpha `1`. |
| Charts.OpaqueRgba | script.js:560 | Replacing the first `0.8` of `rgba(r, g, b, 0.8)` changes only the alpha. |
| Charts.MakeConfig | script.js:552-577 | Computes the configuration handed to the Chart constructor. `Charts.MakeConfigSpec` and `Charts.ColorsSpec` state what it holds. |
| Charts.MakeConfigSpec | script.js:552-577 | The configuration carries the parsed type, labels, data and title, one palette colour per data point up to six, and a value axis exactly when the type is neither `pie` nor `doughnut`. |
| Registry.ChartRegistry.constructor | script.js:9 | `chartInstances` starts as the empty map, in which no chart sits under two ids. |
| Registry.ChartInstance.Destroy | script.js:538 | `destroy` leaves the instance no longer live. |
| Registry.ChartRegistry.RenderChart | script.js:512-584 | When the parse throws or the canvas is missing, the map and its entries are unchanged. Otherwise: the old chart under the id is destroyed; if the constructor succeeds, a fresh live chart with the built configuration is stored under the id; if it throws, the map is unchanged. Other ids are never touched. |
| Display.LiveStep | script.js:503-506 | Induction step of the liveness outcome: when a round changes only the liveness under its own id, and clears it exactly when the item draws, the outcome for the first i items extends to the first i + 1. |
| Display.LiveNow | script.js:504-505 | The same step, stated on the registry's entries after a round of `Display.DrawItem`. |
| Display.LiveAfterAll | script.js:503-506 | At the end of the list, the liveness outcome means: ids off the list keep their liveness, and each item's old chart is live exactly when it was live and the item did not get as far as drawing. |
| Display.RenderAll | script.js:503-506 | Drawing the chart list in order: every item ends with its own chart registered, or keeps its old entry. Ids not on the list keep their entries, and those charts keep their liveness. No chart object sits under two ids. For each id on the list, the old chart under it stays live exactly when it was live and the item did not get as far as drawing, through `LiveAfter` at the end of the list. |
| Display.DrawItem | script.js:504-505 | One round of the `forEach`: the item's outcome is added to those of the earlier items. Only the entry under the item's id changes. An old chart under that id is destroyed when the item gets as far as drawing, and keeps its liveness when it does not. Every entry is an old chart or a fresh one. The charts under other ids keep their liveness. |
| Display.DisplayAIMessageWithVisuals | script.js:455-509 | The HTML is the diagram replace, then the chart replace, then formatting. The chart list is the chart blocks left after the diagram replace, and every chart on it is drawn into the registry. Charts under ids not on the list are left as they were. An old chart under the id of a list item is live at the end exactly when it was live before and that item did not get as far as drawing. |
| Display.RenderReply | script.js:485-489 | Computes the HTML put into the message: the diagram replace, then the chart replace, then the formatting chain. `Display.RenderReplyHasNoNewline`, `Display.NoBacktickUnchanged`, `Display.PlainReply` and `Display.DiagramReply` state what it gives. |
| Display.RenderReplyHasNoNewline | script.js:485-489 | The HTML put into the message holds no newline. |
| Display.NoBacktickUnchanged | script.js:465-482 | Text without a backtick contains no block, and passes both block replaces unchanged. |
| Display.PlainReply | script.js:462-487 | A reply with no backtick and no `*` only has its newlines turned into `<br>`, and yields no chart. |
| Display.DiagramReply | script.js:465-487 | A reply that is one diagram block, whose text holds no backtick and no `*`, becomes one container with id `mermaid-<ts>-0`, holding the trimmed diagram text with its newlines turned into `<br>`. It yields no chart. |
| Speech.StripTags | script.js:593 | The tag replace from a position on: a `<` with a later `>` is dropped together with everything up to the first such `>`; every other character is copied. The result is never longer than the rest of the text. `Speech.CleanTextHasNoTag` and `Speech.LeadingTagDropped` state more. |
| Speech.StripFences | script.js:593 | The fence replace from a position on: a fence with a later fence is dropped together with everything up to the end of the first such fence; every other character is copied. The result is never longer than the rest of the text. `Speech.FencesCopy`, `Speech.FenceSpanAt` and `Speech.FenceSpanDropped` state more. |
| Speech.CleanText | script.js:593 | The cleaned text is never longer than the reply. |
| Speech.CleanTextHasNoTag | script.js:593 | In the cleaned text, no `<` has a `>` anywhere after it. |
| Speech.CleanTextUnchanged | script.js:593 | Text with neither `<` nor a backtick is spoken as it is. |
| Speech.LeadingTagDropped | script.js:593 | A leading `<…>` tag is removed from plain text that follows it. |
| Speech.FenceSpanDropped | script.js:593 | A span from one triple backtick to the next is removed with both fences, the text before and after it being kept: `x` + fence + `y` + fence + `z` is spoken as `x + z`. |
| Speech.CleanSpan | script.js:593 | In any text without `<` whose only backticks are those of the two fences around one span, the cleaned text is the text before the span followed by the text after it. |
| Speech.FencesCopy | script.js:593 | A stretch without a backtick is copied as it is by the fence replace, wherever it stands in the text. |
| Speech.FenceSpanAt | script.js:593 | The fence replace drops a whole span, fences included, where it starts at a fence and holds no backtick between its two fences. |
| Keywords.SplitRuns | script.js:661 | The split at runs of separators, from a position on. It always yields at least one piece, the empty text included. `Keywords.SplitRunsPieces`, `Keywords.SplitRunsConcat` and `Keywords.SplitRunsRejoin` state what the pieces are. |
| Keywords.LongWords | script.js:661 | The length filter. It never yields more pieces than it is given. `Keywords.LongWordsSpec`, `Keywords.LongWordsAppend` and `Keywords.LongWordsEmpty` state which pieces it keeps. |
| Keywords.SplitRunsPieces | script.js:661 | No piece of the split contains a separator (`、`, `。` or white space). |
| Keywords.SplitRunsConcat | script.js:661 | Joined together, the pieces are the query with every separator removed. |
| Keywords.LongWordsSpec | script.js:661 | The filter keeps exactly the pieces longer than one character. |
| Keywords.SplitRunsRejoin | script.js:661 | The split cuts at maximal runs: the runs between the pieces are non-empty and made of separators only. Putting them back between the pieces gives the query. |
| Keywords.LongWordsAppend | script.js:661 | The filter keeps the order of the pieces. |
| Keywords.LongWordsEmpty | script.js:661 | The filter leaves nothing exactly when every piece is at most one character long. |
| Keywords.NoKeywordSearchesQuery | script.js:661-662 | No search word is found exactly when every piece of the split is at most one character long. The whole query is then searched for. |
| Keywords.ChooseKeyword | script.js:662 | Computes `keywords[0] || query`. `Keywords.NoKeywordSearchesQuery`, `Keywords.ChooseKeywordFirst` and `Keywords.ChooseKeywordSpec` state what it picks. |
| Keywords.ChooseKeywordFirst | script.js:661-662 | The search word is the first piece of the split longer than one character. |
| Keywords.ChooseKeywordSpec | script.js:662 | The search word is the query itself, or a piece of the split longer than one character that contains no separator. A query of more than one character with no separator is searched for as it is. |
| Voice.VoiceInput.constructor | script.js:16-17 | The page as loaded: `isRecording` false and no alert, the microphone button shown, the idle placeholder. Whether `initSpeechRecognition` (script.js:206-235) found the browser's recognition is the `hasRecognition` parameter. |
| Voice.VoiceInput.StopVoiceInput | script.js:259-268 | Recording stops, and the buttons and the placeholder return to their idle state. Recognition is stopped only if it was recording. |
| Voice.VoiceInput.StartVoiceInput | script.js:238-256 | Without recognition, it only alerts. While recording, it stops. Otherwise it starts recording, swaps the buttons and asks the user to speak. The page stays consistent with the flag, and the flag flips exactly when recognition exists. |

## Left out

- DOM work is not modelled. That covers building the message element, `innerHTML`, `appendChild`, the early return when the chat container is missing, and scrolling. `getElementById` for the canvas appears only as the `canvases` parameter.
- `mermaid.run` is left out. It is a foreign library, and its errors are caught.
- Chart.js itself is represented only by `accepts`, which says whether its constructor throws, and by the `live` flag that `destroy` clears. The constant chart options are not part of `Config`: `responsive`, `maintainAspectRatio`, the legend, the title font, and `beginAtZero` beyond the presence of the value axis.
- The `setTimeout(…, 200)` deferral is dropped: the body of `renderChart` runs synchronously, in list order.
- `Date.now()` is one `ts` parameter shared by every id of a reply. The code reads the clock once per match, so its ids may differ in the time part as well. The model's ids are told apart by their counters alone.
- `JSON.parse` is the abstract `parse` parameter. Its results are kept as an opaque element type.
- Strings are sequences of Dafny characters. JavaScript's UTF-16 code units, including surrogate pairs, are idealised as single characters.
- Speech recognition is not modelled: its `onresult`, `onerror` and `onend` events, and its setup. `recognition.start()` and `recognition.stop()` appear only as the `listening` field.
- `alert` appears only as the `alerts` list.
- These are outside the model: the OpenAI, Pexels and VOICEVOX requests, conversation history, speech synthesis and audio playback, the VRM scene and its animation loop, the settings modal, and the welcome message. `fetchRelatedMedia` is modelled only up to the choice of the search word.
- config.js is not part of this model. It holds constants only.

=== FILE: chart.dfy ===
/** The chart payload of a reply: the line-by-line key parser of
    `renderChart`, its defaults, and the Chart.js configuration built from
    the parsed values (colours and axes). */
module Charts {
  import opened Strings

  const DefaultType: string := "bar"
  const DefaultTitle: string := "グラフ"
  const TypePrefix: string := "type:"
  const LabelsPrefix: string := "labels:"
  const DataPrefix: string := "data:"
  const TitlePrefix: string := "title:"
  const Colon: string := ":"
  const Bracket: string := "["

  /** The outcome of code that may throw. */
  datatype Result<T> = Ok(value: T) | Failure

  /** The four values the parser fills in. The labels and the data are the
      elements of JSON arrays; their element type is left open. */
  datatype Spec<J> = Spec(kind: string, labels: seq<J>, data: seq<J>, title: string)

  function Default<J>(): Spec<J> {
    Spec(DefaultType, [], [], DefaultTitle)
  }

  /** What one line of the payload sets. */
  datatype Field<J> =
    | TypeField(kind: string)
    | LabelsField(labels: seq<J>)
    | DataField(data: seq<J>)
    | TitleField(title: string)
    | Ignored

  predicate StartsWith(s: string, prefix: string) {
    OccursAt(s, prefix, 0)
  }

  /** `JSON.parse(line.substring(line.indexOf('[')))` for a line holding a
      JSON array, with `parse` standing for `JSON.parse` restricted to arrays
      (None where it throws). Without a `[`, `indexOf` gives -1, `substring`
      clamps it to 0 and the whole line, which starts with a letter, is handed
      to `JSON.parse`, which throws. */
  function ReadArray<J>(line: string, parse: string -> Option<seq<J>>): Option<seq<J>> {
    match IndexOfFrom(line, Bracket, 0)
    case Some(p) => parse(line[p..])
    case None => None
  }

  /** The `if`/`else if` chain applied to one line of the payload. */
  function ClassifyLine<J>(raw: string, parse: string -> Option<seq<J>>): Result<Field<J>> {
    var line := Trim(raw);
    if StartsWith(line, TypePrefix) then
      KeyHasColon(line);
      Ok(TypeField(Trim(SecondField(line, Colon))))
    else if StartsWith(line, LabelsPrefix) then
      match ReadArray(line, parse)
      case Some(v) => Ok(LabelsField(v))
      case None => Failure
    else if StartsWith(line, DataPrefix) then
      match ReadArray(line, parse)
      case Some(v) => Ok(DataField(v))
      case None => Failure
    else if StartsWith(line, TitlePrefix) then
      FoundAt(line, TitlePrefix, 0);
      Ok(TitleField(Trim(SecondField(line, TitlePrefix))))
    else Ok(Ignored)
  }

  lemma {:induction false} KeyHasColon(line: string)
    requires StartsWith(line, TypePrefix)
    ensures IndexOfFrom(line, Colon, 0).Some?
  {
    assert line[4..5] == TypePrefix[4..5] == Colon;
    FoundAt(line, Colon, 4);
  }

  /** Where `pat` occurs, indexOf finds an occurrence. */
  lemma {:induction false} FoundAt(s: string, pat: string, j: nat)
    requires OccursAt(s, pat, j)
    ensures IndexOfFrom(s, pat, 0).Some?
  {
    IndexOfFromIsFirst(s, pat, 0);
  }

  /** The assignment a field makes to the parser's variables. */
  function Apply<J>(spec: Spec<J>, f: Field<J>): Spec<J> {
    match f
    case TypeField(t) => spec.(kind := t)
    case LabelsField(v) => spec.(labels := v)
    case DataField(v) => spec.(data := v)
    case TitleField(t) => spec.(title := t)
    case Ignored => spec
  }

  /** The `forEach` over the lines from `spec` on: each line's field is
      applied in order, and the first line that throws ends the parse. */
  function FoldLines<J>(spec: Spec<J>, lines: seq<string>, parse: string -> Option<seq<J>>): Result<Spec<J>>
    decreases |lines|
  {
    if lines == [] then Ok(spec)
    else
      match ClassifyLine(lines[0], parse)
      case Ok(f) => FoldLines(Apply(spec, f), lines[1..], parse)
      case Failure => Failure
  }

  /** The lines of a payload: `chartDataString.trim().split('\n')`. */
  function Lines(payload: string): seq<string> {
    SplitOn(Trim(payload), '\n')
  }

  /** The parse of a whole payload, from the defaults. */
  function ParseChart<J>(payload: string, parse: string -> Option<seq<J>>): Result<Spec<J>> {
    FoldLines(Default(), Lines(payload), parse)
  }

  /** The parsing part of `renderChart`: the loop reassigns the four
      variables line by line, and a throwing line ends it. */
  method ParsePayload<J>(payload: string, parse: string -> Option<seq<J>>) returns (r: Result<Spec<J>>)
    ensures r == ParseChart(payload, parse)
  {
    var lines := Lines(payload);
    var kind, labels, data, title := DefaultType, [], [], DefaultTitle;
    var i := 0;
    while i < |lines|
      invariant i <= |lines|
      invariant FoldLines(Spec(kind, labels, data, title), lines[i..], parse) == ParseChart(payload, parse)
    {
      assert lines[i..][0] == lines[i] && lines[i..][1..] == lines[i + 1..];
      match ClassifyLine(lines[i], parse)
      case Failure =>
        return Failure;
      case Ok(f) =>
        if f.TypeField? {
          kind := f.kind;
        } else if f.LabelsField? {
          labels := f.labels;
        } else if f.DataField? {
          data := f.data;
        } else if f.TitleField? {
          title := f.title;
        }
        i := i + 1;
    }
    r := Ok(Spec(kind, labels, data, title));
  }

  /** Every field of every line, or Failure if some line throws. */
  function ClassifyAll<J>(lines: seq<string>, parse: string -> Option<seq<J>>): Result<seq<Field<J>>>
    decreases |lines|
  {
    if lines == [] then Ok([])
    else
      match ClassifyLine(lines[0], parse)
      case Failure => Failure
      case Ok(f) =>
        match ClassifyAll(lines[1..], parse)
        case Failure => Failure
        case Ok(fs) => Ok([f] + fs)
  }

  /** The fields applied left to right. */
  function Fold<J>(spec: Spec<J>, fs: seq<Field<J>>): Spec<J>
    decreases |fs|
  {
    if fs == [] then spec else Fold(Apply(spec, fs[0]), fs[1..])
  }

  /** The line loop fails exactly when some line throws, and otherwise is
      the fold of all the lines' fields. */
  lemma {:induction false} FoldLinesIsFold<J>(spec: Spec<J>, lines: seq<string>, parse: string -> Option<seq<J>>)
    decreases |lines|
    ensures FoldLines(spec, lines, parse) ==
              match ClassifyAll(lines, parse)
              case Ok(fs) => Ok(Fold(spec, fs))
              case Failure => Failure
  {
    if lines != [] {
      match ClassifyLine(lines[0], parse)
      case Failure =>
      case Ok(f) =>
        FoldLinesIsFold(Apply(spec, f), lines[1..], parse);
        match ClassifyAll(lines[1..], parse)
        case Failure =>
        case Ok(fs) =>
          assert ([f] + fs)[0] == f && ([f] + fs)[1..] == fs;
    }
  }

  /** One line that throws makes the whole parse throw, whatever the other
      lines hold. */
  lemma {:induction false} FailingLineFails<J>(spec: Spec<J>, lines: seq<string>, parse: string -> Option<seq<J>>, j: nat)
    requires j < |lines| && ClassifyLine(lines[j], parse).Failure?
    decreases j
    ensures FoldLines(spec, lines, parse) == Failure
  {
    if j > 0 {
      match ClassifyLine(lines[0], parse)
      case Failure =>
      case Ok(f) =>
        assert lines[1..][j - 1] == lines[j];
        FailingLineFails(Apply(spec, f), lines[1..], parse, j - 1);
    }
  }

  /** The four keys of the parser. */
  datatype Key = TypeKey | LabelsKey | DataKey | TitleKey

  function KeyOf<J>(f: Field<J>): Option<Key> {
    match f
    case TypeField(_) => Some(TypeKey)
    case LabelsField(_) => Some(LabelsKey)
    case DataField(_) => Some(DataKey)
    case TitleField(_) => Some(TitleKey)
    case Ignored => None
  }

  /** The value a spec holds under `key`, as the field that would set it. */
  function Get<J>(spec: Spec<J>, key: Key): Field<J> {
    match key
    case TypeKey => TypeField(spec.kind)
    case LabelsKey => LabelsField(spec.labels)
    case DataKey => DataField(spec.data)
    case TitleKey => TitleField(spec.title)
  }

  /** The last field in `fs` that sets `key`, searched from the end. */
  function LastOf<J>(fs: seq<Field<J>>, key: Key): Option<Field<J>>
    decreases |fs|
  {
    if fs == [] then None
    else if KeyOf(fs[|fs| - 1]) == Some(key) then Some(fs[|fs| - 1])
    else LastOf(fs[..|fs| - 1], key)
  }

  /** Last line wins: after the fold, each key holds the value of the last
      field that sets it, or its value before the fold when no field does. */
  lemma {:induction false} FoldLastWins<J>(spec: Spec<J>, fs: seq<Field<J>>, key: Key)
    decreases |fs|
    ensures Get(Fold(spec, fs), key) ==
              match LastOf(fs, key)
              case Some(f) => f
              case None => Get(spec, key)
  {
    if fs != [] {
      var init, last := fs[..|fs| - 1], fs[|fs| - 1];
      assert fs == init + [last];
      FoldSnoc(spec, init, last);
      FoldLastWins(spec, init, key);
    }
  }

  lemma {:induction false} FoldSnoc<J>(spec: Spec<J>, fs: seq<Field<J>>, f: Field<J>)
    decreases |fs|
    ensures Fold(spec, fs + [f]) == Apply(Fold(spec, fs), f)
  {
    if fs == [] {
      assert [] + [f] == [f];
    } else {
      assert (fs + [f])[0] == fs[0] && (fs + [f])[1..] == fs[1..] + [f];
      FoldSnoc(Apply(spec, fs[0]), fs[1..], f);
    }
  }

  /** A line that starts with none of the four keys changes nothing. */
  lemma {:induction false} UnknownLineIgnored<J>(raw: string, parse: string -> Option<seq<J>>)
    requires var line := Trim(raw);
             && !StartsWith(line, TypePrefix) && !StartsWith(line, LabelsPrefix)
             && !StartsWith(line, DataPrefix) && !StartsWith(line, TitlePrefix)
    ensures ClassifyLine(raw, parse) == Ok(Ignored)
  {
  }

  /** A `labels:` line without `[` throws. */
  lemma {:induction false} LabelsWithoutBracketFails<J>(raw: string, parse: string -> Option<seq<J>>)
    requires StartsWith(Trim(raw), LabelsPrefix) && '[' !in Trim(raw)
    ensures ClassifyLine(raw, parse) == Failure
  {
    var line := Trim(raw);
    assert !StartsWith(line, TypePrefix) by {
      assert line[0..5][1] == LabelsPrefix[1] != TypePrefix[1];
    }
    forall j: nat ensures !OccursAt(line, Bracket, j) {
      if j < |line| {
        assert j + 1 <= |line| ==> line[j..j + 1][0] == line[j];
      }
    }
    IndexOfFromIsFirst(line, Bracket, 0);
  }

  /** A `data:` line without `[` throws. */
  lemma {:induction false} DataWithoutBracketFails<J>(raw: string, parse: string -> Option<seq<J>>)
    requires StartsWith(Trim(raw), DataPrefix) && '[' !in Trim(raw)
    ensures ClassifyLine(raw, parse) == Failure
  {
    var line := Trim(raw);
    assert !StartsWith(line, TypePrefix) by {
      assert line[0..5][0] == DataPrefix[0] != TypePrefix[0];
    }
    assert !StartsWith(line, LabelsPrefix) by {
      if |LabelsPrefix| <= |line| {
        assert line[0..|LabelsPrefix|][0] == DataPrefix[0] != LabelsPrefix[0];
      }
    }
    forall j: nat ensures !OccursAt(line, Bracket, j) {
      if j < |line| {
        assert j + 1 <= |line| ==> line[j..j + 1][0] == line[j];
      }
    }
    IndexOfFromIsFirst(line, Bracket, 0);
  }

  /** The type is the text between the first `:` and the next one, trimmed. */
  lemma {:induction false} TypeLineValue<J>(raw: string, v: string, w: string, parse: string -> Option<seq<J>>)
    requires Trim(raw) == TypePrefix + v + w && ':' !in v && (w == [] || w[0] == ':')
    ensures ClassifyLine(raw, parse) == Ok(TypeField(Trim(v)))
  {
    var line := Trim(raw);
    assert StartsWith(line, TypePrefix);
    forall q: nat | q < 4 ensures !OccursAt(line, Colon, q) {
      assert line[q] == TypePrefix[q] != ':';
      assert q + 1 <= |line| ==> line[q..q + 1][0] == line[q];
    }
    assert OccursAt(line, Colon, 4);
    IndexOfFromFinds(line, Colon, 0, 4);
    var e := |TypePrefix| + |v|;
    forall q | 5 <= q < e ensures !OccursAt(line, Colon, q) {
      assert line[q] == v[q - 5];
      assert line[q..q + 1][0] == line[q];
    }
    if w == [] {
      IndexOfFromIsFirst(line, Colon, 5);
      assert line[5..] == v;
    } else {
      assert line[e..e + 1] == [w[0]];
      IndexOfFromFinds(line, Colon, 5, e);
      assert line[5..e] == v;
    }
  }

  /** A `title:` line whose value holds no second `title:` sets the title to
      the whole value, trimmed, colons included. */
  lemma {:induction false} TitleLineValue<J>(raw: string, v: string, parse: string -> Option<seq<J>>)
    requires Trim(raw) == TitlePrefix + v && forall j: nat :: !OccursAt(v, TitlePrefix, j)
    ensures ClassifyLine(raw, parse) == Ok(TitleField(Trim(v)))
  {
    var line := Trim(raw);
    var n := |TitlePrefix|;
    assert line[..n] == TitlePrefix && line[n..] == v;
    assert !StartsWith(line, TypePrefix) by {
      assert line[0..|TypePrefix|][1] == line[1] != TypePrefix[1];
    }
    assert !StartsWith(line, LabelsPrefix) by {
      if |LabelsPrefix| <= |line| {
        assert line[0..|LabelsPrefix|][0] == line[0] != LabelsPrefix[0];
      }
    }
    assert !StartsWith(line, DataPrefix) by {
      assert line[0..|DataPrefix|][0] == line[0] != DataPrefix[0];
    }
    assert StartsWith(line, TitlePrefix);
    IndexOfFromIsFirst(line, TitlePrefix, n);
    forall j: nat | n <= j && j + n <= |line| ensures !OccursAt(line, TitlePrefix, j) {
      assert line[j..j + n] == v[j - n..j - n + n];
      assert !OccursAt(v, TitlePrefix, j - n);
    }
    assert IndexOfFrom(line, TitlePrefix, 0) == Some(0);
  }

  /** The six colours of the chart palette, in order. */
  const Palette: seq<string> := [
    Rgba(Red, Alpha), Rgba(Blue, Alpha), Rgba(Yellow, Alpha),
    Rgba(Teal, Alpha), Rgba(Purple, Alpha), Rgba(Orange, Alpha)
  ]

  const Red: string := "255, 99, 132"
  const Blue: string := "54, 162, 235"
  const Yellow: string := "255, 206, 86"
  const Teal: string := "75, 192, 192"
  const Purple: string := "153, 102, 255"
  const Orange: string := "255, 159, 64"
  const Channels: seq<string> := [Red, Blue, Yellow, Teal, Purple, Orange]
  const Alpha: string := "0.8"
  const Opaque: string := "1"

  /** The CSS colour `rgba(<channels>, <alpha>)`. */
  function Rgba(channels: string, alpha: string): string {
    "rgba(" + channels + ", " + alpha + ")"
  }

  function Min(a: nat, b: nat): nat {
    if a <= b then a else b
  }

  /** `colors.slice(0, n)`: slice clamps its end, so there is no cycling. */
  function BackgroundColors(n: nat): (r: seq<string>)
    ensures |r| == Min(n, |Palette|)
  {
    Palette[..Min(n, |Palette|)]
  }

  /** `colors.slice(0, n).map(c => c.replace('0.8', '1'))`. */
  function BorderColors(n: nat): (r: seq<string>)
    ensures |r| == Min(n, |Palette|)
  {
    var bg := BackgroundColors(n);
    seq(|bg|, i requires 0 <= i < |bg| => ReplaceFirst(bg[i], Alpha, Opaque))
  }

  /** The background colours are the first palette entries in palette order,
      and each border colour is the same colour made opaque. */
  lemma {:induction false} ColorsSpec(n: nat)
    ensures |BackgroundColors(n)| == |BorderColors(n)| == Min(n, 6)
    ensures forall i :: 0 <= i < Min(n, 6) ==>
              && BackgroundColors(n)[i] == Rgba(Channels[i], Alpha)
              && BorderColors(n)[i] == Rgba(Channels[i], Opaque)
  {
    forall i | 0 <= i < Min(n, 6)
      ensures BorderColors(n)[i] == Rgba(Channels[i], Opaque)
    {
      assert '.' !in Channels[i];
      OpaqueRgba(Channels[i]);
    }
  }

  /** Replacing the first `0.8` of `rgba(<channels>, 0.8)` by `1` only
      touches the alpha when the channels hold no dot. */
  lemma {:induction false} OpaqueRgba(channels: string)
    requires '.' !in channels
    ensures ReplaceFirst(Rgba(channels, Alpha), Alpha, Opaque) == Rgba(channels, Opaque)
  {
    var head := "rgba(" + channels + ", ";
    var s := Rgba(channels, Alpha);
    assert s == head + Alpha + ")";
    var e := |head|;
    assert OccursAt(s, Alpha, e);
    forall q | 0 <= q < e ensures !OccursAt(s, Alpha, q) {
      if q + |Alpha| <= |s| {
        assert s[q..q + |Alpha|][1] == s[q + 1];
        if q + 1 < e {
          assert s[q + 1] == head[q + 1];
          if 5 <= q + 1 < 5 + |channels| {
            assert head[q + 1] == channels[q + 1 - 5];
          }
        }
      }
    }
    IndexOfFromFinds(s, Alpha, 0, e);
    assert s[..e] == head && s[e + |Alpha|..] == ")";
  }

  /** The Chart.js configuration `renderChart` builds, keeping the parts that
      depend on the parsed values. */
  datatype Config<J> = Config(
    kind: string,
    labels: seq<J>,
    datasetLabel: string,
    data: seq<J>,
    background: seq<string>,
    border: seq<string>,
    borderWidth: nat,
    titleText: string,
    valueAxis: bool)

  const BorderWidth: nat := 2
  const Pie: string := "pie"
  const Doughnut: string := "doughnut"

  /** `scales` holds a `y` axis starting at zero unless the chart is round. */
  predicate HasValueAxis(kind: string) {
    kind != Pie && kind != Doughnut
  }

  function MakeConfig<J>(spec: Spec<J>): Config<J> {
    Config(spec.kind, spec.labels, spec.title, spec.data,
           BackgroundColors(|spec.data|), BorderColors(|spec.data|),
           BorderWidth, spec.title, HasValueAxis(spec.kind))
  }

  /** The configuration shows the parsed values, one palette colour per data
      point up to six, and a value axis exactly for charts that are not pie or
      doughnut charts. */
  lemma {:induction false} MakeConfigSpec<J>(spec: Spec<J>)
    ensures var c := MakeConfig(spec);
            && c.kind == spec.kind && c.labels == spec.labels && c.data == spec.data
            && c.datasetLabel == spec.title && c.titleText == spec.title
            && |c.background| == |c.border| == Min(|spec.data|, 6)
            && (forall i :: 0 <= i < |c.background| ==>
                  c.background[i] == Rgba(Channels[i], Alpha) && c.border[i] == Rgba(Channels[i], Opaque))
            && (c.valueAxis <==> spec.kind != "pie" && spec.kind != "doughnut")
  {
    ColorsSpec(|spec.data|);
  }
}

=== FILE: display.dfy ===
/** `displayAIMessageWithVisuals`: a reply is rewritten block kind by block
    kind (diagrams first, then charts), formatted, and every chart found is
    then drawn into the registry, in the order of the blocks. */
module Display {
  import opened Strings
  import opened Extract
  import opened Format
  import opened Charts
  import opened Registry

  /** The HTML a reply becomes, `ts` being the clock reading used in the ids. */
  function RenderReply(content: string, ts: nat): string {
    FormatReply(Rewrite(Rewrite(content, Mermaid, ts, 0, 0), Chart, ts, 0, 0))
  }

  /** The `chartData` list: the chart blocks of the text the diagram replace
      leaves behind. */
  function ChartsOf(content: string, ts: nat): seq<ChartItem> {
    ChartItems(Matches(Rewrite(content, Mermaid, ts, 0, 0), Chart, 0), ts, 0)
  }

  /** Whether `renderChart` gets past parsing and the canvas lookup for an
      item, i.e. destroys the old chart and calls the Chart constructor. */
  predicate Draws<J>(item: ChartItem, parse: string -> Option<seq<J>>, canvases: set<string>) {
    ParseChart(item.data, parse).Ok? && item.id in canvases
  }

  /** The configuration drawn for an item that gets that far. */
  function ConfigOf<J>(item: ChartItem, parse: string -> Option<seq<J>>): Config<J>
    requires ParseChart(item.data, parse).Ok?
  {
    MakeConfig(ParseChart(item.data, parse).value)
  }

  /** Whether a new chart is registered for an item. */
  predicate Registers<J>(item: ChartItem, parse: string -> Option<seq<J>>, canvases: set<string>,
                         accepts: Config<J> -> bool)
  {
    Draws(item, parse, canvases) && accepts(ConfigOf(item, parse))
  }

  function Ids(items: seq<ChartItem>): set<string> {
    set item | item in items :: item.id
  }

  predicate DistinctIds(items: seq<ChartItem>) {
    forall a, b :: 0 <= a < b < |items| ==> items[a].id != items[b].id
  }

  /** What the registry holds for an item once it has been drawn: a chart
      with the item's configuration, or, when none was registered, the entry
      it had before. */
  ghost predicate Outcome<J>(m: map<string, ChartInstance<J>>, item: ChartItem, parse: string -> Option<seq<J>>,
                             canvases: set<string>, accepts: Config<J> -> bool,
                             before: map<string, ChartInstance<J>>)
  {
    if Registers(item, parse, canvases, accepts) then
      item.id in m && m[item.id].config == ConfigOf(item, parse)
    else
      Kept(m, item.id, before)
  }

  /** What the registry holds once the first `i` items have been drawn:
      their outcomes, and the entries it had before under every other id. */
  ghost predicate Drawn<J>(m: map<string, ChartInstance<J>>, items: seq<ChartItem>, i: nat,
                           parse: string -> Option<seq<J>>, canvases: set<string>, accepts: Config<J> -> bool,
                           before: map<string, ChartInstance<J>>)
    requires i <= |items|
  {
    && (forall id :: id !in Ids(items[..i]) ==> Kept(m, id, before))
    && (forall j :: 0 <= j < i ==> Outcome(m, items[j], parse, canvases, accepts, before))
  }

  /** Whether each chart of `m` is live. */
  ghost function LiveOf<J>(m: map<string, ChartInstance<J>>): (r: map<string, bool>)
    reads m.Values
    ensures r.Keys == m.Keys
  {
    map id | id in m :: m[id].live
  }

  /** The liveness `live` of the charts the registry had before, once the
      first `i` items have been drawn, against their liveness `live0` before
      the first: an item that got as far as drawing destroyed the old chart
      under its id; every other old chart is as live as it was. */
  ghost predicate LiveAfter<J>(items: seq<ChartItem>, i: nat, parse: string -> Option<seq<J>>, canvases: set<string>,
                               live0: map<string, bool>, live: map<string, bool>)
    requires i <= |items|
  {
    && live.Keys == live0.Keys
    && (forall id :: id in live0 && id !in Ids(items[..i]) ==> live[id] == live0[id])
    && (forall j :: 0 <= j < i && items[j].id in live0 ==>
          live[items[j].id] == (live0[items[j].id] && !Draws(items[j], parse, canvases)))
  }

  /** Drawing one more item, which changes at most the liveness under its
      own id, to false exactly when it gets as far as drawing, extends the
      liveness outcome by that item. */
  lemma {:induction false} LiveStep<J>(items: seq<ChartItem>, i: nat, parse: string -> Option<seq<J>>, canvases: set<string>,
                                       live0: map<string, bool>, l1: map<string, bool>, l2: map<string, bool>)
    requires i < |items| && DistinctIds(items)
    requires LiveAfter(items, i, parse, canvases, live0, l1)
    requires l2.Keys == l1.Keys && forall id :: id in l1 && id != items[i].id ==> l2[id] == l1[id]
    requires items[i].id in l1 ==> l2[items[i].id] == (l1[items[i].id] && !Draws(items[i], parse, canvases))
    ensures LiveAfter(items, i + 1, parse, canvases, live0, l2)
  {
    IdsPrefix(items, i);
    NextIdNew(items, i);
    forall id | id in live0 && id !in Ids(items[..i + 1]) ensures l2[id] == live0[id] {
      assert id !in Ids(items[..i]) && id != items[i].id;
    }
    forall j | 0 <= j < i + 1 && items[j].id in live0
      ensures l2[items[j].id] == (live0[items[j].id] && !Draws(items[j], parse, canvases))
    {
      if j < i {
        assert items[j].id != items[i].id && l2[items[j].id] == l1[items[j].id];
      } else {
        assert l1[items[i].id] == live0[items[i].id];
      }
    }
  }

  /** `LiveStep` for the charts of `before` as they are now, `l1` being their
      liveness before the round. */
  lemma {:induction false} LiveNow<J>(items: seq<ChartItem>, i: nat, parse: string -> Option<seq<J>>,
                                      canvases: set<string>, live0: map<string, bool>, l1: map<string, bool>,
                                      before: map<string, ChartInstance<J>>)
    requires i < |items| && DistinctIds(items)
    requires LiveAfter(items, i, parse, canvases, live0, l1) && l1.Keys == before.Keys
    requires forall id :: id in before && id != items[i].id ==> before[id].live == l1[id]
    requires items[i].id in before ==> before[items[i].id].live == (l1[items[i].id] && !Draws(items[i], parse, canvases))
    ensures LiveAfter(items, i + 1, parse, canvases, live0, LiveOf(before))
  {
    LiveStep(items, i, parse, canvases, live0, l1, LiveOf(before));
  }

  /** Once every item has been drawn: the old charts under ids not on the
      list are as live as they were, and the one under each item's id is
      live exactly when it was and the item did not get as far as drawing. */
  lemma {:induction false} LiveAfterAll<J>(items: seq<ChartItem>, parse: string -> Option<seq<J>>, canvases: set<string>,
                                           live0: map<string, bool>, live: map<string, bool>)
    requires LiveAfter(items, |items|, parse, canvases, live0, live)
    ensures forall id :: id in live0 && id !in Ids(items) ==> id in live && live[id] == live0[id]
    ensures forall j :: 0 <= j < |items| && items[j].id in live0 ==>
              items[j].id in live && live[items[j].id] == (live0[items[j].id] && !Draws(items[j], parse, canvases))
  {
    assert items[..|items|] == items;
  }

  /** `chartData.forEach(item => renderChart(item.id, item.data))`. */
  method RenderAll<J>(reg: ChartRegistry<J>, items: seq<ChartItem>, parse: string -> Option<seq<J>>,
                      canvases: set<string>, accepts: Config<J> -> bool)
    requires reg.Distinct() && DistinctIds(items)
    modifies reg, reg.instances.Values
    ensures reg.Distinct()
    ensures forall id :: id !in Ids(items) ==> Kept(reg.instances, id, old(reg.instances))
    ensures forall j :: 0 <= j < |items| ==> Outcome(reg.instances, items[j], parse, canvases, accepts, old(reg.instances))
    ensures forall j :: 0 <= j < |items| && Registers(items[j], parse, canvases, accepts) ==>
              items[j].id in reg.instances && fresh(reg.instances[items[j].id]) && reg.instances[items[j].id].live
    ensures forall id :: id in old(reg.instances) && id !in Ids(items) ==>
              old(reg.instances)[id].live == old(reg.instances[id].live)
    ensures LiveAfter(items, |items|, parse, canvases, old(LiveOf(reg.instances)), LiveOf(old(reg.instances)))
  {
    ghost var before := reg.instances;
    ghost var live0 := LiveOf(before);
    var i := 0;
    while i < |items|
      invariant i <= |items|
      invariant reg.Distinct()
      invariant forall a, b :: a in before && b in before && a != b ==> before[a] != before[b]
      invariant forall id :: id in reg.instances ==> reg.instances[id] in before.Values || fresh(reg.instances[id])
      invariant Drawn(reg.instances, items, i, parse, canvases, accepts, before)
      invariant forall j :: 0 <= j < i && Registers(items[j], parse, canvases, accepts) ==>
                  items[j].id in reg.instances && fresh(reg.instances[items[j].id]) && reg.instances[items[j].id].live
      invariant live0 == old(LiveOf(before))
      invariant LiveAfter(items, i, parse, canvases, live0, LiveOf(before))
      decreases |items| - i
    {
      ghost var mid := reg.instances;
      ghost var l1 := LiveOf(before);
      DrawItem(reg, items, i, parse, canvases, accepts, before, l1);
      LiveNow(items, i, parse, canvases, live0, l1, before);
      forall j | 0 <= j < i && Registers(items[j], parse, canvases, accepts)
        ensures items[j].id in reg.instances && fresh(reg.instances[items[j].id]) && reg.instances[items[j].id].live
      {
        assert items[j].id != items[i].id && items[j].id in mid;
        assert Kept(reg.instances, items[j].id, mid) && mid[items[j].id].live;
      }
      i := i + 1;
    }
    assert items[..i] == items;
    LiveAfterAll(items, parse, canvases, live0, LiveOf(before));
    forall id | id in before && id !in Ids(items) ensures before[id].live == old(before[id].live) {
      assert LiveOf(before)[id] == before[id].live && live0[id] == old(before[id].live);
    }
  }

  /** One round of the `forEach`: `renderChart` on the next item, which
      touches only the entry under that item's id. */
  method DrawItem<J>(reg: ChartRegistry<J>, items: seq<ChartItem>, i: nat, parse: string -> Option<seq<J>>,
                     canvases: set<string>, accepts: Config<J> -> bool, ghost before: map<string, ChartInstance<J>>,
                     ghost l1: map<string, bool>)
    requires i < |items| && DistinctIds(items) && reg.Distinct()
    requires forall a, b :: a in before && b in before && a != b ==> before[a] != before[b]
    requires Drawn(reg.instances, items, i, parse, canvases, accepts, before)
    requires l1 == LiveOf(before)
    modifies reg, if items[i].id in reg.instances then {reg.instances[items[i].id]} else {}
    ensures reg.Distinct()
    ensures forall k :: k != items[i].id ==> Kept(reg.instances, k, old(reg.instances))
    ensures Drawn(reg.instances, items, i + 1, parse, canvases, accepts, before)
    ensures Registers(items[i], parse, canvases, accepts) ==>
              items[i].id in reg.instances && fresh(reg.instances[items[i].id]) && reg.instances[items[i].id].live
    ensures forall id :: id in reg.instances ==> reg.instances[id] in old(reg.instances.Values) || fresh(reg.instances[id])
    ensures forall k :: k in old(reg.instances) && k != items[i].id ==>
              old(reg.instances)[k].live == old(reg.instances[k].live)
    ensures forall id :: id in before && id != items[i].id ==> before[id].live == l1[id]
    ensures items[i].id in before ==> before[items[i].id].live == (l1[items[i].id] && !Draws(items[i], parse, canvases))
    ensures Draws(items[i], parse, canvases) && items[i].id in old(reg.instances) ==>
              !old(reg.instances)[items[i].id].live
    ensures !Draws(items[i], parse, canvases) && items[i].id in old(reg.instances) ==>
              old(reg.instances)[items[i].id].live == old(reg.instances[items[i].id].live)
  {
    var item := items[i];
    ghost var mid := reg.instances;
    IdsPrefix(items, i);
    NextIdNew(items, i);
    OthersUntouched(items, i, before, mid);
    reg.RenderChart(item.id, item.data, parse, canvases, accepts);
    OutcomeStep(items, i, parse, canvases, accepts, before, mid, reg.instances);
  }

  /** Drawing one more item, which only touches the entry under its own id,
      keeps what the earlier items left in the registry and what the
      remaining ids had before. */
  lemma {:induction false} OutcomeStep<J>(items: seq<ChartItem>, i: nat, parse: string -> Option<seq<J>>,
                                          canvases: set<string>, accepts: Config<J> -> bool,
                                          before: map<string, ChartInstance<J>>,
                                          mid: map<string, ChartInstance<J>>, m: map<string, ChartInstance<J>>)
    requires i < |items| && DistinctIds(items)
    requires Ids(items[..i + 1]) == Ids(items[..i]) + {items[i].id}
    requires forall id :: id !in Ids(items[..i]) ==> Kept(mid, id, before)
    requires forall j :: 0 <= j < i ==> Outcome(mid, items[j], parse, canvases, accepts, before)
    requires forall k :: k != items[i].id ==> Kept(m, k, mid)
    requires Outcome(m, items[i], parse, canvases, accepts, before)
    ensures forall id :: id !in Ids(items[..i + 1]) ==> Kept(m, id, before)
    ensures forall j :: 0 <= j < i + 1 ==> Outcome(m, items[j], parse, canvases, accepts, before)
  {
    forall j | 0 <= j < i ensures Outcome(m, items[j], parse, canvases, accepts, before) {
      assert items[j].id != items[i].id;
      assert Kept(m, items[j].id, mid);
    }
    forall id | id !in Ids(items[..i + 1]) ensures Kept(m, id, before) {
      assert id != items[i].id && id !in Ids(items[..i]);
      assert Kept(m, id, mid) && Kept(mid, id, before);
    }
  }

  /** The chart the next item may destroy is the one its id had before, so
      none of the charts the other ids had before. */
  lemma {:induction false} OthersUntouched<J>(items: seq<ChartItem>, i: nat, before: map<string, ChartInstance<J>>,
                                              mid: map<string, ChartInstance<J>>)
    requires i < |items| && items[i].id !in Ids(items[..i])
    requires forall a, b :: a in before && b in before && a != b ==> before[a] != before[b]
    requires forall id :: id !in Ids(items[..i]) ==> Kept(mid, id, before)
    ensures items[i].id in mid ==> items[i].id in before && mid[items[i].id] == before[items[i].id]
    ensures forall id :: id in before && id != items[i].id && items[i].id in mid ==> mid[items[i].id] != before[id]
  {
    assert Kept(mid, items[i].id, before);
  }

  /** With distinct ids, the next item's id is not among the earlier ones. */
  lemma {:induction false} NextIdNew(items: seq<ChartItem>, i: nat)
    requires i < |items| && DistinctIds(items)
    ensures items[i].id !in Ids(items[..i])
  {
    forall it | it in items[..i] ensures it.id != items[i].id {
      var k :| 0 <= k < i && items[..i][k] == it;
    }
  }

  /** The ids of a prefix grow by one item at a time. */
  lemma {:induction false} IdsPrefix(items: seq<ChartItem>, i: nat)
    requires i < |items|
    ensures Ids(items[..i + 1]) == Ids(items[..i]) + {items[i].id}
  {
    assert items[..i + 1] == items[..i] + [items[i]];
  }

  /** The whole of `displayAIMessageWithVisuals` after the early return:
      `html` is what goes into the message element. */
  method DisplayAIMessageWithVisuals<J>(content: string, ts: nat, reg: ChartRegistry<J>,
                                        parse: string -> Option<seq<J>>, canvases: set<string>,
                                        accepts: Config<J> -> bool)
    returns (html: string, items: seq<ChartItem>)
    requires reg.Distinct()
    modifies reg, reg.instances.Values
    ensures html == RenderReply(content, ts)
    ensures items == ChartsOf(content, ts)
    ensures reg.Distinct()
    ensures forall id :: id !in Ids(items) ==> Kept(reg.instances, id, old(reg.instances))
    ensures forall j :: 0 <= j < |items| ==> Outcome(reg.instances, items[j], parse, canvases, accepts, old(reg.instances))
    ensures forall j :: 0 <= j < |items| && Registers(items[j], parse, canvases, accepts) ==>
              items[j].id in reg.instances && fresh(reg.instances[items[j].id]) && reg.instances[items[j].id].live
    ensures forall id :: id in old(reg.instances) && id !in Ids(items) ==>
              old(reg.instances)[id].live == old(reg.instances[id].live)
    ensures LiveAfter(items, |items|, parse, canvases, old(LiveOf(reg.instances)), LiveOf(old(reg.instances)))
    ensures forall j :: 0 <= j < |items| && items[j].id in old(reg.instances) ==>
              old(reg.instances)[items[j].id].live == (old(reg.instances[items[j].id].live) && !Draws(items[j], parse, canvases))
  {
    var diagrams := ReplaceDiagrams(content, ts);
    var text;
    text, items := ReplaceCharts(diagrams, ts);
    html := FormatReply(text);
    ChartIdsDistinct(Matches(diagrams, Chart, 0), ts);
    ghost var before := reg.instances;
    ghost var live0 := LiveOf(before);
    RenderAll(reg, items, parse, canvases, accepts);
    LiveAfterAll(items, parse, canvases, live0, LiveOf(before));
    forall j | 0 <= j < |items| && items[j].id in before
      ensures before[items[j].id].live == (old(before[items[j].id].live) && !Draws(items[j], parse, canvases))
    {
      assert LiveOf(before)[items[j].id] == before[items[j].id].live && live0[items[j].id] == old(before[items[j].id].live);
    }
  }

  /** A rendered reply contains no newline. */
  lemma {:induction false} RenderReplyHasNoNewline(content: string, ts: nat)
    ensures '\n' !in RenderReply(content, ts)
  {
    FormatReplyHasNoNewline(Rewrite(Rewrite(content, Mermaid, ts, 0, 0), Chart, ts, 0, 0));
  }

  /** Text without a backtick holds no block of either kind and passes both
      replaces unchanged. */
  lemma {:induction false} NoBacktickUnchanged(s: string, kind: Kind, ts: nat)
    requires '`' !in s
    ensures Matches(s, kind, 0) == []
    ensures Rewrite(s, kind, ts, 0, 0) == s
  {
    forall p | 0 <= p < |s| ensures FenceAt(s, kind, p).None? {
      if p + |Opener(kind)| <= |s| {
        assert s[p..p + |Opener(kind)|][0] == s[p];
      }
    }
    NoMatchesIffNoFence(s, kind, 0);
    UnchangedWithoutMatches(s, kind, ts, 0, 0);
  }

  /** A reply with no backtick and no `*` is only stripped of its newlines. */
  lemma {:induction false} PlainReply(content: string, ts: nat)
    requires '`' !in content && '*' !in content
    ensures RenderReply(content, ts) == NewlinesToBr(content)
    ensures ChartsOf(content, ts) == []
  {
    NoBacktickUnchanged(content, Mermaid, ts);
    NoBacktickUnchanged(content, Chart, ts);
    FormatWithoutStars(content);
  }

  /** A reply that is one diagram block becomes one diagram container whose
      id ends in `-0` and whose body is the trimmed diagram text, in which the
      formatting has turned every newline into `<br>` too. */
  lemma {:induction false} DiagramReply(body: string, ts: nat)
    requires '`' !in body && '*' !in body
    ensures RenderReply(MermaidOpener + body + Fence, ts) ==
              DiagramHead + BlockId(Mermaid, ts, 0) + DiagramMid + NewlinesToBr(Trim(body)) + DiagramTail
    ensures ChartsOf(MermaidOpener + body + Fence, ts) == []
  {
    var m := Markup(Mermaid, BlockId(Mermaid, ts, 0), body);
    DiagramRewrite(body, ts);
    MarkupPlain(body, ts);
    NoBacktickUnchanged(m, Chart, ts);
    FormatWithoutStars(m);
    MarkupNewlines(body, ts);
  }

  /** The diagram replace turns a lone block into its markup. */
  lemma {:induction false} DiagramRewrite(body: string, ts: nat)
    requires '`' !in body
    ensures Rewrite(MermaidOpener + body + Fence, Mermaid, ts, 0, 0) == Markup(Mermaid, BlockId(Mermaid, ts, 0), body)
  {
    var s := MermaidOpener + body + Fence;
    var n := |MermaidOpener|;
    var e := n + |body|;
    assert OccursAt(s, MermaidOpener, 0) && OccursAt(s, Fence, e);
    forall q | n <= q < e ensures !OccursAt(s, Fence, q) {
      assert s[q] == body[q - n];
    }
    IndexOfFromFinds(s, Fence, n, e);
    assert FenceAt(s, Mermaid, 0) == Some(e);
    assert s[n..e] == body;
    assert Rewrite(s, Mermaid, ts, e + |Fence|, 1) == "";
  }

  /** The markup of a diagram whose body has no backtick and no `*` has
      neither. */
  lemma {:induction false} MarkupPlain(body: string, ts: nat)
    requires '`' !in body && '*' !in body
    ensures var m := Markup(Mermaid, BlockId(Mermaid, ts, 0), body);
            '`' !in m && '*' !in m
  {
    IdPlain(ts);
    PiecesPlain();
    TrimKeepsOut(body, '`');
    TrimKeepsOut(body, '*');
  }

  /** Only the diagram text of the markup holds newlines. */
  lemma {:induction false} MarkupNewlines(body: string, ts: nat)
    ensures NewlinesToBr(Markup(Mermaid, BlockId(Mermaid, ts, 0), body)) ==
              DiagramHead + BlockId(Mermaid, ts, 0) + DiagramMid + NewlinesToBr(Trim(body)) + DiagramTail
  {
    var id := BlockId(Mermaid, ts, 0);
    IdPlain(ts);
    PiecesPlain();
    NewlinesToBrAround(DiagramHead + id + DiagramMid, Trim(body), DiagramTail);
  }

  /** An element id holds no backtick, `*` or newline. */
  lemma {:induction false} IdPlain(ts: nat)
    ensures var id := BlockId(Mermaid, ts, 0);
            '`' !in id && '*' !in id && '\n' !in id
  {
    DecDigits(ts);
    DecDigits(0);
    var id := BlockId(Mermaid, ts, 0);
    assert forall j :: 0 <= j < |id| ==> id[j] in IdPrefix(Mermaid) || id[j] in Dec(ts) || id[j] == '-' || id[j] in Dec(0);
  }

  /** Text that neither the block nor the bold pattern can touch and that
      holds no newline. */
  predicate Plain(t: string) {
    '`' !in t && '*' !in t && '\n' !in t
  }

  /** The fixed pieces of the diagram markup are plain. */
  lemma {:induction false} PiecesPlain()
    ensures Plain(DiagramHead) && Plain(DiagramMid) && Plain(DiagramTail)
  {
    HeadPlain();
    MidPlain();
    TailPlain();
  }

  lemma {:induction false} HeadPlain()
    ensures Plain(DiagramHead)
  {
    HeadHasNoBacktick();
    HeadHasNoStar();
    HeadHasNoNewline();
  }

  lemma {:induction false} HeadHasNoBacktick()
    ensures '`' !in DiagramHead
  {
  }

  lemma {:induction false} HeadHasNoStar()
    ensures '*' !in DiagramHead
  {
  }

  lemma {:induction false} HeadHasNoNewline()
    ensures '\n' !in DiagramHead
  {
  }

  lemma {:induction false} MidPlain()
    ensures Plain(DiagramMid)
  {
  }

  lemma {:induction false} TailPlain()
    ensures Plain(DiagramTail)
  {
  }
}

=== FILE: extract.dfy ===
/** Extraction of fenced diagram and chart blocks from a model reply.

    The reply text is rewritten by a global, non-greedy regular-expression
    replace per block kind: every "```mermaid\n ... ```" (or
    "```chart\n ... ```") is replaced, left to right, by HTML markup carrying a
    per-kind counter in its element id. The body of a block ends at the first
    "```" after its opening marker. */
module Extract {
  import opened Strings

  datatype Kind = Mermaid | Chart

  /** The opening marker of a block of this kind, its newline included. */
  function Opener(kind: Kind): string {
    match kind
    case Mermaid => MermaidOpener
    case Chart => ChartOpener
  }

  const MermaidOpener: string := "```mermaid\n"
  const ChartOpener: string := "```chart\n"

  /** The closing marker. */
  const Fence: string := "```"

  function IdPrefix(kind: Kind): string {
    match kind
    case Mermaid => "mermaid-"
    case Chart => "chart-"
  }

  /** The element id of the k-th block of a kind: `mermaid-<ts>-<k>` or
      `chart-<ts>-<k>`, with `ts` the clock reading. */
  function BlockId(kind: Kind, ts: nat, k: nat): string {
    IdPrefix(kind) + Dec(ts) + "-" + Dec(k)
  }

  /** The counter alone keeps the ids of one kind apart. */
  lemma {:induction false} BlockIdInjective(kind: Kind, ts: nat, j: nat, k: nat)
    requires BlockId(kind, ts, j) == BlockId(kind, ts, k)
    ensures j == k
  {
    var p := IdPrefix(kind) + Dec(ts) + "-";
    assert BlockId(kind, ts, j) == p + Dec(j);
    assert BlockId(kind, ts, k) == p + Dec(k);
    assert Dec(j) == (p + Dec(j))[|p|..];
    assert Dec(k) == (p + Dec(k))[|p|..];
    DecInjective(j, k);
  }

  /** The fixed pieces of the markup a block is replaced by. */
  const DiagramHead: string := "<div class=\"mermaid-diagram\" id=\""
  const DiagramMid: string := "\">"
  const DiagramTail: string := "</div>"
  const CanvasHead: string := "<div class=\"chart-container\"><canvas id=\""
  const CanvasTail: string := "\" class=\"chart-canvas\"></canvas></div>"

  /** The markup a block is replaced by. A diagram keeps its trimmed body
      inside the container; a chart leaves only a canvas with the id. */
  function Markup(kind: Kind, id: string, body: string): string {
    match kind
    case Mermaid => DiagramHead + id + DiagramMid + Trim(body) + DiagramTail
    case Chart => CanvasHead + id + CanvasTail
  }

  /** Whether a block of `kind` matches at position `i` of `s`, and if so where
      its closing fence starts. */
  function FenceAt(s: string, kind: Kind, i: nat): (r: Option<nat>)
  {
    if OccursAt(s, Opener(kind), i) then IndexOfFrom(s, Fence, i + |Opener(kind)|) else None
  }

  /** A block matches at `i` exactly when its opening marker stands at `i` and
      a fence follows it; the body then runs to the first such fence. */
  lemma {:induction false} FenceAtSpec(s: string, kind: Kind, i: nat)
    ensures var r := FenceAt(s, kind, i);
            r.Some? ==>
              && OccursAt(s, Opener(kind), i)
              && i + |Opener(kind)| <= r.value
              && OccursAt(s, Fence, r.value)
              && forall j :: i + |Opener(kind)| <= j < r.value ==> !OccursAt(s, Fence, j)
    ensures var r := FenceAt(s, kind, i);
            r.None? ==>
              || !OccursAt(s, Opener(kind), i)
              || forall j: nat :: i + |Opener(kind)| <= j ==> !OccursAt(s, Fence, j)
  {
    if OccursAt(s, Opener(kind), i) {
      IndexOfFromIsFirst(s, Fence, i + |Opener(kind)|);
    }
  }

  /** Where a block matches, its closing fence lies after the opening marker
      and inside the text. */
  lemma {:induction false} FenceAtBounds(s: string, kind: Kind, i: nat, c: nat)
    requires FenceAt(s, kind, i) == Some(c)
    ensures i + |Opener(kind)| <= c && c + |Fence| <= |s|
  {
  }

  /** One match of the replace: where its opening marker starts, where its
      closing fence starts, and the (untrimmed) body between the two. */
  datatype Match = Match(open: nat, close: nat, body: string)

  /** The matches of the global replace of blocks of `kind`, scanning from
      position `i`: leftmost first, resuming after each closing fence. */
  function Matches(s: string, kind: Kind, i: nat): seq<Match>
    requires i <= |s|
    decreases |s| - i
  {
    if i == |s| then []
    else
      match FenceAt(s, kind, i)
      case Some(c) => [Match(i, c, s[i + |Opener(kind)|..c])] + Matches(s, kind, c + |Fence|)
      case None => Matches(s, kind, i + 1)
  }

  /** The text the global replace produces from position `i` on, with `k`
      blocks already replaced before `i`. */
  function Rewrite(s: string, kind: Kind, ts: nat, i: nat, k: nat): string
    requires i <= |s|
    decreases |s| - i
  {
    if i == |s| then ""
    else
      match FenceAt(s, kind, i)
      case Some(c) =>
        Markup(kind, BlockId(kind, ts, k), s[i + |Opener(kind)|..c]) + Rewrite(s, kind, ts, c + |Fence|, k + 1)
      case None =>
        [s[i]] + Rewrite(s, kind, ts, i + 1, k)
  }

  /** `m` is a block of `kind` that matches where it stands in `s`. */
  ghost predicate IsMatch(s: string, kind: Kind, m: Match) {
    && FenceAt(s, kind, m.open) == Some(m.close)
    && m.body == s[m.open + |Opener(kind)|..m.close]
  }

  /** Matches lie at or after `i`, in increasing order and without
      overlapping: each one starts after the closing fence of the one before. */
  ghost predicate Ordered(s: string, kind: Kind, i: nat, ms: seq<Match>)
    decreases |ms|
  {
    || ms == []
    || (&& i <= ms[0].open
        && ms[0].open + |Opener(kind)| <= ms[0].close
        && ms[0].close + |Fence| <= |s|
        && Ordered(s, kind, ms[0].close + |Fence|, ms[1..]))
  }

  /** The matches found from `i` on lie in source order and none overlaps
      the next. */
  lemma {:induction false} MatchesOrdered(s: string, kind: Kind, i: nat)
    requires i <= |s|
    decreases |s| - i
    ensures Ordered(s, kind, i, Matches(s, kind, i))
  {
    if i < |s| {
      match FenceAt(s, kind, i)
      case Some(c) =>
        MatchesOrdered(s, kind, c + |Fence|);
        var ms := Matches(s, kind, i);
        assert ms[1..] == Matches(s, kind, c + |Fence|);
      case None =>
        MatchesOrdered(s, kind, i + 1);
    }
  }

  /** Every match found from `i` on is a real block: its opening marker
      stands where it starts and its body runs to the first fence after it. */
  lemma {:induction false} MatchesAreBlocks(s: string, kind: Kind, i: nat)
    requires i <= |s|
    decreases |s| - i
    ensures forall m :: m in Matches(s, kind, i) ==> IsMatch(s, kind, m)
  {
    if i < |s| {
      match FenceAt(s, kind, i)
      case Some(c) =>
        MatchesAreBlocks(s, kind, c + |Fence|);
        var ms := Matches(s, kind, i);
        assert ms == [ms[0]] + Matches(s, kind, c + |Fence|);
      case None =>
        MatchesAreBlocks(s, kind, i + 1);
    }
  }

  /** No match is skipped: every position where a block of `kind` could
      match lies inside one of the matches (from its opening marker to the end
      of its closing fence). With MatchesOrdered and MatchesAreBlocks this
      pins the matches down as exactly the leftmost-first, non-overlapping
      ones. */
  lemma {:induction false} NoMissedFence(s: string, kind: Kind, i: nat)
    requires i <= |s|
    ensures forall p :: i <= p < |s| && FenceAt(s, kind, p).Some? ==> Covered(Matches(s, kind, i), p)
  {
    forall p | i <= p < |s| && FenceAt(s, kind, p).Some?
      ensures Covered(Matches(s, kind, i), p)
    {
      NoMissedFenceAt(s, kind, i, p);
    }
  }

  lemma {:induction false} NoMissedFenceAt(s: string, kind: Kind, i: nat, p: nat)
    requires i <= p < |s| && FenceAt(s, kind, p).Some?
    decreases |s| - i, 1
    ensures Covered(Matches(s, kind, i), p)
  {
    match FenceAt(s, kind, i)
    case Some(c) =>
      NoMissedFenceAtMatch(s, kind, i, c, p);
    case None =>
      NoMissedFenceNoMatch(s, kind, i, p);
  }

  lemma {:induction false} NoMissedFenceAtMatch(s: string, kind: Kind, i: nat, c: nat, p: nat)
    requires i <= p < |s| && FenceAt(s, kind, p).Some? && FenceAt(s, kind, i) == Some(c)
    decreases |s| - i, 0
    ensures Covered(Matches(s, kind, i), p)
  {
    FenceAtBounds(s, kind, i, c);
    if p < c + |Fence| {
      CoveredByFirst(s, kind, i, c, p);
    } else {
      var e := c + |Fence|;
      assert i < e <= p;
      NoMissedFenceAt(s, kind, e, p);
      CoveredByLater(s, kind, i, c, p);
    }
  }

  lemma {:induction false} CoveredByFirst(s: string, kind: Kind, i: nat, c: nat, p: nat)
    requires i < |s| && FenceAt(s, kind, i) == Some(c) && i <= p < c + |Fence|
    ensures Covered(Matches(s, kind, i), p)
  {
    MatchesAtMatch(s, kind, i, c);
    var first := Match(i, c, s[i + |Opener(kind)|..c]);
    assert first in [first] + Matches(s, kind, c + |Fence|);
  }

  lemma {:induction false} CoveredByLater(s: string, kind: Kind, i: nat, c: nat, p: nat)
    requires i < |s| && FenceAt(s, kind, i) == Some(c)
    requires c + |Fence| <= |s| && Covered(Matches(s, kind, c + |Fence|), p)
    ensures Covered(Matches(s, kind, i), p)
  {
    MatchesAtMatch(s, kind, i, c);
    CoveredTail(Match(i, c, s[i + |Opener(kind)|..c]), Matches(s, kind, c + |Fence|), p);
  }

  lemma {:induction false} NoMissedFenceNoMatch(s: string, kind: Kind, i: nat, p: nat)
    requires i < p < |s| && FenceAt(s, kind, p).Some? && FenceAt(s, kind, i).None?
    decreases |s| - i, 0
    ensures Covered(Matches(s, kind, i), p)
  {
    NoMissedFenceAt(s, kind, i + 1, p);
    MatchesNoMatch(s, kind, i);
  }

  /** Position `p` lies inside one of the matches `ms`, from its opening
      marker to the end of its closing fence. */
  ghost predicate Covered(ms: seq<Match>, p: nat) {
    exists m :: m in ms && m.open <= p < m.close + |Fence|
  }

  lemma {:induction false} CoveredTail(first: Match, rest: seq<Match>, p: nat)
    requires Covered(rest, p)
    ensures Covered([first] + rest, p)
  {
    var m :| m in rest && m.open <= p < m.close + |Fence|;
    assert m in [first] + rest;
  }

  /** No block of `kind` can match anywhere from `i` on exactly when the
      replace finds no match there. */
  lemma {:induction false} NoMatchesIffNoFence(s: string, kind: Kind, i: nat)
    requires i <= |s|
    ensures (forall p :: i <= p < |s| ==> FenceAt(s, kind, p).None?) <==> Matches(s, kind, i) == []
  {
    NoMissedFence(s, kind, i);
    var ms := Matches(s, kind, i);
    if ms != [] {
      MatchesOrdered(s, kind, i);
      MatchesAreBlocks(s, kind, i);
      assert ms[0] in ms && IsMatch(s, kind, ms[0]);
    }
  }

  /** Text without a match is left as it is. */
  lemma {:induction false} UnchangedWithoutMatches(s: string, kind: Kind, ts: nat, i: nat, k: nat)
    requires i <= |s| && Matches(s, kind, i) == []
    decreases |s| - i
    ensures Rewrite(s, kind, ts, i, k) == s[i..]
  {
    if i < |s| {
      match FenceAt(s, kind, i)
      case Some(c) =>
        MatchesAtMatch(s, kind, i, c);
        assert false;
      case None =>
        MatchesNoMatch(s, kind, i);
        UnchangedWithoutMatches(s, kind, ts, i + 1, k);
        RewriteNoMatch(s, kind, ts, i, k);
        assert s[i..] == [s[i]] + s[i + 1..];
    }
  }

  /** The markup for matches numbered from `k`, in order. */
  function Markups(kind: Kind, ts: nat, ms: seq<Match>, k: nat): (r: seq<string>)
    decreases |ms|
    ensures |r| == |ms|
  {
    if ms == [] then [] else [Markup(kind, BlockId(kind, ts, k), ms[0].body)] + Markups(kind, ts, ms[1..], k + 1)
  }

  /** The j-th replacement is the markup of the j-th match with counter k + j. */
  lemma {:induction false} MarkupsAt(kind: Kind, ts: nat, ms: seq<Match>, k: nat, j: nat)
    requires j < |ms|
    decreases j
    ensures Markups(kind, ts, ms, k)[j] == Markup(kind, BlockId(kind, ts, k + j), ms[j].body)
  {
    if j > 0 {
      MarkupsAt(kind, ts, ms[1..], k + 1, j - 1);
    }
  }

  /** The text spelled out from ordered matches and their replacements: the
      text between matches is copied and each match gives way to its
      replacement. */
  ghost function Splice(s: string, kind: Kind, i: nat, ms: seq<Match>, reps: seq<string>): string
    requires i <= |s| && Ordered(s, kind, i, ms) && |reps| == |ms|
    decreases |ms|
  {
    if ms == [] then s[i..]
    else s[i..ms[0].open] + reps[0] + Splice(s, kind, ms[0].close + |Fence|, ms[1..], reps[1..])
  }

  /** Starting the splice one character earlier copies that character. */
  lemma {:induction false} SpliceStep(s: string, kind: Kind, i: nat, ms: seq<Match>, reps: seq<string>)
    requires i < |s| && Ordered(s, kind, i + 1, ms) && |reps| == |ms|
    ensures Ordered(s, kind, i, ms)
    ensures Splice(s, kind, i, ms, reps) == [s[i]] + Splice(s, kind, i + 1, ms, reps)
  {
    if ms == [] {
      assert s[i..] == [s[i]] + s[i + 1..];
    } else {
      var a := s[i + 1..ms[0].open];
      var r := Splice(s, kind, ms[0].close + |Fence|, ms[1..], reps[1..]);
      assert s[i..ms[0].open] == [s[i]] + a;
      ConsAssoc(s[i], a, reps[0], r);
    }
  }

  lemma {:induction false} ConsAssoc<T>(c: T, a: seq<T>, m: seq<T>, r: seq<T>)
    ensures ([c] + a) + m + r == [c] + (a + m + r)
  {
  }

  /** Each match is replaced in place by its markup, with the counter of its
      id running k, k + 1, ... in source order, and every character outside
      the matches is kept as it is. */
  lemma {:induction false} RewriteIsSplice(s: string, kind: Kind, ts: nat, i: nat, k: nat)
    requires i <= |s|
    decreases |s| - i, 1
    ensures Ordered(s, kind, i, Matches(s, kind, i))
    ensures Rewrite(s, kind, ts, i, k) == Splice(s, kind, i, Matches(s, kind, i), Markups(kind, ts, Matches(s, kind, i), k))
  {
    MatchesOrdered(s, kind, i);
    if i == |s| {
      assert Matches(s, kind, i) == [];
      assert Rewrite(s, kind, ts, i, k) == s[i..];
    } else {
      match FenceAt(s, kind, i)
      case Some(c) => RewriteIsSpliceAtMatch(s, kind, ts, i, k, c);
      case None => RewriteIsSpliceNoMatch(s, kind, ts, i, k);
    }
  }

  /** RewriteIsSplice where a block matches at `i`. */
  lemma {:induction false} RewriteIsSpliceAtMatch(s: string, kind: Kind, ts: nat, i: nat, k: nat, c: nat)
    requires i < |s| && FenceAt(s, kind, i) == Some(c)
    decreases |s| - i, 0
    ensures Ordered(s, kind, i, Matches(s, kind, i))
    ensures Rewrite(s, kind, ts, i, k) == Splice(s, kind, i, Matches(s, kind, i), Markups(kind, ts, Matches(s, kind, i), k))
  {
    MatchesOrdered(s, kind, i);
    RewriteIsSplice(s, kind, ts, c + |Fence|, k + 1);
    var body := s[i + |Opener(kind)|..c];
    var later := Matches(s, kind, c + |Fence|);
    MatchesAtMatch(s, kind, i, c);
    MarkupsCons(kind, ts, Match(i, c, body), later, k);
    RewriteAtMatch(s, kind, ts, i, k, c);
    SpliceAtMatch(s, kind, i, c, body, later, Markup(kind, BlockId(kind, ts, k), body),
                  Markups(kind, ts, later, k + 1));
  }

  /** RewriteIsSplice where no block matches at `i`. */
  lemma {:induction false} RewriteIsSpliceNoMatch(s: string, kind: Kind, ts: nat, i: nat, k: nat)
    requires i < |s| && FenceAt(s, kind, i).None?
    decreases |s| - i, 0
    ensures Ordered(s, kind, i, Matches(s, kind, i))
    ensures Rewrite(s, kind, ts, i, k) == Splice(s, kind, i, Matches(s, kind, i), Markups(kind, ts, Matches(s, kind, i), k))
  {
    MatchesOrdered(s, kind, i);
    RewriteIsSplice(s, kind, ts, i + 1, k);
    MatchesNoMatch(s, kind, i);
    RewriteNoMatch(s, kind, ts, i, k);
    SpliceStep(s, kind, i, Matches(s, kind, i + 1), Markups(kind, ts, Matches(s, kind, i + 1), k));
  }

  lemma {:induction false} RewriteAtMatch(s: string, kind: Kind, ts: nat, i: nat, k: nat, c: nat)
    requires i < |s| && FenceAt(s, kind, i) == Some(c)
    ensures Rewrite(s, kind, ts, i, k)
            == Markup(kind, BlockId(kind, ts, k), s[i + |Opener(kind)|..c]) + Rewrite(s, kind, ts, c + |Fence|, k + 1)
  {
  }

  lemma {:induction false} RewriteNoMatch(s: string, kind: Kind, ts: nat, i: nat, k: nat)
    requires i < |s| && FenceAt(s, kind, i).None?
    ensures Rewrite(s, kind, ts, i, k) == [s[i]] + Rewrite(s, kind, ts, i + 1, k)
  {
  }

  lemma {:induction false} MatchesNoMatch(s: string, kind: Kind, i: nat)
    requires i < |s| && FenceAt(s, kind, i).None?
    ensures Matches(s, kind, i) == Matches(s, kind, i + 1)
  {
  }

  lemma {:induction false} MarkupsCons(kind: Kind, ts: nat, m: Match, ms: seq<Match>, k: nat)
    ensures Markups(kind, ts, [m] + ms, k) == [Markup(kind, BlockId(kind, ts, k), m.body)] + Markups(kind, ts, ms, k + 1)
  {
    assert ([m] + ms)[1..] == ms;
  }

  lemma {:induction false} SpliceAtMatch(s: string, kind: Kind, i: nat, c: nat, body: string, ms: seq<Match>, rep: string, reps: seq<string>)
    requires i <= |s| && Ordered(s, kind, i, [Match(i, c, body)] + ms) && |reps| == |ms|
    ensures Ordered(s, kind, c + |Fence|, ms)
    ensures Splice(s, kind, i, [Match(i, c, body)] + ms, [rep] + reps) == rep + Splice(s, kind, c + |Fence|, ms, reps)
  {
    var xs, ys := [Match(i, c, body)] + ms, [rep] + reps;
    ConsParts(Match(i, c, body), ms);
    ConsParts(rep, reps);
    var r := Splice(s, kind, c + |Fence|, ms, reps);
    assert Splice(s, kind, i, xs, ys) == s[i..i] + rep + r;
    EmptyPrefix(s[i..i], rep, r);
  }

  lemma {:induction false} ConsParts<T>(x: T, y: seq<T>)
    ensures ([x] + y)[0] == x && ([x] + y)[1..] == y
  {
  }

  lemma {:induction false} EmptyPrefix<T>(a: seq<T>, b: seq<T>, c: seq<T>)
    requires a == []
    ensures a + b + c == b + c
  {
  }

  /** Non-greedy matching: no body contains a fence. */
  lemma {:induction false} BodyHasNoFence(s: string, kind: Kind)
    ensures forall m, q: nat :: m in Matches(s, kind, 0) ==> !OccursAt(m.body, Fence, q)
  {
    MatchesAreBlocks(s, kind, 0);
    forall m | m in Matches(s, kind, 0) ensures forall q: nat :: !OccursAt(m.body, Fence, q) {
      BlockBodyHasNoFence(s, kind, m);
    }
  }

  lemma {:induction false} BlockBodyHasNoFence(s: string, kind: Kind, m: Match)
    requires IsMatch(s, kind, m)
    ensures forall q: nat :: !OccursAt(m.body, Fence, q)
  {
    FenceAtSpec(s, kind, m.open);
    var a := m.open + |Opener(kind)|;
    forall q: nat | OccursAt(m.body, Fence, q) ensures false {
      SliceOfSlice(s, a, m.close, q, q + |Fence|);
      assert OccursAt(s, Fence, a + q);
    }
  }

  /** What the chart callback pushes per match: `{id, data}`. */
  datatype ChartItem = ChartItem(id: string, data: string)

  /** The chart list for matches numbered from `k`: each gets the id with its
      counter and keeps its body untrimmed. */
  function ChartItems(ms: seq<Match>, ts: nat, k: nat): (r: seq<ChartItem>)
    decreases |ms|
    ensures |r| == |ms|
  {
    if ms == [] then [] else [ChartItem(BlockId(Chart, ts, k), ms[0].body)] + ChartItems(ms[1..], ts, k + 1)
  }

  /** The j-th chart entry carries the id with counter k + j and the body of
      the j-th match. */
  lemma {:induction false} ChartItemsAt(ms: seq<Match>, ts: nat, k: nat, j: nat)
    requires j < |ms|
    decreases j
    ensures ChartItems(ms, ts, k)[j] == ChartItem(BlockId(Chart, ts, k + j), ms[j].body)
  {
    if j > 0 {
      ChartItemsAt(ms[1..], ts, k + 1, j - 1);
    }
  }

  /** The ids on the chart list are pairwise distinct. */
  lemma {:induction false} ChartIdsDistinct(ms: seq<Match>, ts: nat)
    ensures var items := ChartItems(ms, ts, 0);
            forall a, b :: 0 <= a < b < |items| ==> items[a].id != items[b].id
  {
    var items := ChartItems(ms, ts, 0);
    forall a, b | 0 <= a < b < |items| ensures items[a].id != items[b].id {
      ChartItemsAt(ms, ts, 0, a);
      ChartItemsAt(ms, ts, 0, b);
      if items[a].id == items[b].id {
        BlockIdInjective(Chart, ts, a, b);
      }
    }
  }

  /** Loop invariant of the replace: `done` is what the replace has produced
      for the text before `i`, with `k` blocks replaced so far. */
  ghost predicate DoneUpTo(s: string, kind: Kind, ts: nat, i: nat, k: nat, done: string)
    requires i <= |s|
  {
    done + Rewrite(s, kind, ts, i, k) == Rewrite(s, kind, ts, 0, 0)
  }

  /** The diagram replace: `processedContent.replace(regex, callback)` where
      the callback takes the next counter value for the id of the diagram
      container. */
  method ReplaceDiagrams(s: string, ts: nat) returns (text: string)
    ensures text == Rewrite(s, Mermaid, ts, 0, 0)
  {
    var i, k := 0, 0;
    text := "";
    while i < |s|
      invariant i <= |s|
      invariant DoneUpTo(s, Mermaid, ts, i, k, text)
      decreases |s| - i
    {
      match FenceAt(s, Mermaid, i)
      case Some(c) =>
        var markup := Markup(Mermaid, BlockId(Mermaid, ts, k), s[i + |Opener(Mermaid)|..c]);
        ghost var i0, k0, text0 := i, k, text;
        text := text + markup;
        k := k + 1;
        i := c + |Fence|;
        TextAtMatch(s, Mermaid, ts, i0, k0, c, text0, markup, i, k, text);
      case None =>
        TextNoMatch(s, Mermaid, ts, i, k, text);
        text := text + [s[i]];
        i := i + 1;
    }
  }

  /** The chart replace: the callback takes the next counter value for the
      canvas id and pushes `{id, data}` onto the chart list. */
  method ReplaceCharts(s: string, ts: nat) returns (text: string, items: seq<ChartItem>)
    ensures text == Rewrite(s, Chart, ts, 0, 0)
    ensures items == ChartItems(Matches(s, Chart, 0), ts, 0)
  {
    var i, k := 0, 0;
    text, items := "", [];
    while i < |s|
      invariant i <= |s|
      invariant DoneUpTo(s, Chart, ts, i, k, text)
      invariant items + ChartItems(Matches(s, Chart, i), ts, k) == ChartItems(Matches(s, Chart, 0), ts, 0)
      decreases |s| - i
    {
      match FenceAt(s, Chart, i)
      case Some(c) =>
        var id := BlockId(Chart, ts, k);
        var body := s[i + |Opener(Chart)|..c];
        var markup := Markup(Chart, id, body);
        ghost var i0, k0, text0, items0 := i, k, text, items;
        text := text + markup;
        items := items + [ChartItem(id, body)];
        k := k + 1;
        i := c + |Fence|;
        TextAtMatch(s, Chart, ts, i0, k0, c, text0, markup, i, k, text);
        ItemsAtMatch(s, ts, i0, k0, c, items0, i, k, items);
      case None =>
        TextNoMatch(s, Chart, ts, i, k, text);
        MatchesNoMatch(s, Chart, i);
        text := text + [s[i]];
        i := i + 1;
    }
  }

  /** Loop step of the replace where a block matches at `i`: its markup is
      appended and the scan resumes after its closing fence. */
  lemma {:induction false} TextAtMatch(s: string, kind: Kind, ts: nat, i: nat, k: nat, c: nat, text: string, markup: string, i': nat, k': nat, text': string)
    requires i < |s| && FenceAt(s, kind, i) == Some(c)
    requires markup == Markup(kind, BlockId(kind, ts, k), s[i + |Opener(kind)|..c])
    requires DoneUpTo(s, kind, ts, i, k, text)
    requires i' == c + |Fence| && k' == k + 1 && text' == text + markup
    ensures i < i' <= |s| && DoneUpTo(s, kind, ts, i', k', text')
  {
    FenceAtBounds(s, kind, i, c);
    RewriteAtMatch(s, kind, ts, i, k, c);
    Regroup(text, Rewrite(s, kind, ts, i, k), markup, Rewrite(s, kind, ts, c + |Fence|, k + 1), Rewrite(s, kind, ts, 0, 0));
  }

  /** Loop step of the replace where no block matches at `i`: the character
      is copied. */
  lemma {:induction false} TextNoMatch(s: string, kind: Kind, ts: nat, i: nat, k: nat, text: string)
    requires i < |s| && FenceAt(s, kind, i).None?
    requires DoneUpTo(s, kind, ts, i, k, text)
    ensures DoneUpTo(s, kind, ts, i + 1, k, text + [s[i]])
  {
    RewriteNoMatch(s, kind, ts, i, k);
    Regroup(text, Rewrite(s, kind, ts, i, k), [s[i]], Rewrite(s, kind, ts, i + 1, k), Rewrite(s, kind, ts, 0, 0));
  }

  /** Loop step of the chart replace where a chart matches at `i`: its entry
      is pushed. */
  lemma {:induction false} ItemsAtMatch(s: string, ts: nat, i: nat, k: nat, c: nat, items: seq<ChartItem>, i': nat, k': nat, items': seq<ChartItem>)
    requires i < |s| && FenceAt(s, Chart, i) == Some(c)
    requires items + ChartItems(Matches(s, Chart, i), ts, k) == ChartItems(Matches(s, Chart, 0), ts, 0)
    requires i' == c + |Fence| && k' == k + 1
    requires items' == items + [ChartItem(BlockId(Chart, ts, k), s[i + |Opener(Chart)|..c])]
    ensures items' + ChartItems(Matches(s, Chart, i'), ts, k') == ChartItems(Matches(s, Chart, 0), ts, 0)
  {
    var body := s[i + |Opener(Chart)|..c];
    MatchesAtMatch(s, Chart, i, c);
    ChartItemsCons(Match(i, c, body), Matches(s, Chart, c + |Fence|), ts, k);
    Regroup(items, ChartItems(Matches(s, Chart, i), ts, k), [ChartItem(BlockId(Chart, ts, k), body)],
            ChartItems(Matches(s, Chart, c + |Fence|), ts, k + 1), ChartItems(Matches(s, Chart, 0), ts, 0));
  }

  lemma {:induction false} MatchesAtMatch(s: string, kind: Kind, i: nat, c: nat)
    requires i < |s| && FenceAt(s, kind, i) == Some(c)
    ensures Matches(s, kind, i) == [Match(i, c, s[i + |Opener(kind)|..c])] + Matches(s, kind, c + |Fence|)
  {
  }

  lemma {:induction false} ChartItemsCons(m: Match, ms: seq<Match>, ts: nat, k: nat)
    ensures ChartItems([m] + ms, ts, k) == [ChartItem(BlockId(Chart, ts, k), m.body)] + ChartItems(ms, ts, k + 1)
  {
    assert ([m] + ms)[1..] == ms;
  }

  /** One step of an accumulating loop: what is done plus what remains is
      the whole, and the part that remains starts with `head`. */
  lemma {:induction false} Regroup<T>(done: seq<T>, remaining: seq<T>, head: seq<T>, rest: seq<T>, whole: seq<T>)
    requires done + remaining == whole && remaining == head + rest
    ensures (done + head) + rest == whole
  {
  }
}

=== FILE: format.dfy ===
/** The lightweight formatting of a reply: every shortest `**…**` on one
    line becomes a `<strong>` element, then every newline becomes `<br>`. */
module Format {
  import opened Strings

  const Stars: string := "**"
  const StrongOpen: string := "<strong>"
  const StrongClose: string := "</strong>"
  const Br: string := "<br>"

  /** The characters the regular-expression `.` does not match. */
  predicate IsLineTerminator(c: char) {
    c == '\n' || c == '\r' || c == '\U{2028}' || c == '\U{2029}'
  }

  /** `t` lies on one line: `.*` can match all of it. */
  predicate OnOneLine(t: string) {
    forall j :: 0 <= j < |t| ==> !IsLineTerminator(t[j])
  }

  /** Whether the bold pattern matches at position `i` of `s`, and if so where
      its closing `**` starts: the first `**` after the opening one, provided
      no line ends in between (a later `**` cannot help, since its inner text
      would cross the same line end). */
  function BoldAt(s: string, i: nat): (r: Option<nat>) {
    if OccursAt(s, Stars, i) then
      match IndexOfFrom(s, Stars, i + |Stars|)
      case Some(j) => if OnOneLine(s[i + |Stars|..j]) then Some(j) else None
      case None => None
    else None
  }

  /** The bold pattern matches at `i` exactly when `**` stands at `i` and a
      later `**` closes it on the same line; the match is then the shortest
      one, its inner text holding no `**`. */
  lemma {:induction false} BoldAtSpec(s: string, i: nat)
    ensures var r := BoldAt(s, i);
            r.Some? ==>
              && OccursAt(s, Stars, i)
              && i + |Stars| <= r.value
              && OccursAt(s, Stars, r.value)
              && OnOneLine(s[i + |Stars|..r.value])
              && forall q :: i + |Stars| <= q < r.value ==> !OccursAt(s, Stars, q)
    ensures BoldAt(s, i).None? ==>
              forall j :: i + |Stars| <= j && OccursAt(s, Stars, j) && OccursAt(s, Stars, i) ==>
                !OnOneLine(s[i + |Stars|..j])
  {
    var b := i + |Stars|;
    IndexOfFromIsFirst(s, Stars, b);
    if OccursAt(s, Stars, i) {
      match IndexOfFrom(s, Stars, b)
      case Some(j0) =>
        if !OnOneLine(s[b..j0]) {
          var t :| 0 <= t < j0 - b && IsLineTerminator(s[b..j0][t]);
          forall j | b <= j && OccursAt(s, Stars, j) ensures !OnOneLine(s[b..j]) {
            assert j0 <= j;
            assert s[b..j][t] == s[b..j0][t];
          }
        }
      case None =>
    }
  }

  /** `s.replace(/\*\*(.*?)\*\*\/g, '<strong>$1</strong>')` from position `i`
      on: leftmost match first, resuming after its closing `**`. */
  function Embolden(s: string, i: nat): string
    requires i <= |s|
    decreases |s| - i
  {
    if i == |s| then ""
    else
      match BoldAt(s, i)
      case Some(j) => StrongOpen + s[i + |Stars|..j] + StrongClose + Embolden(s, j + |Stars|)
      case None => [s[i]] + Embolden(s, i + 1)
  }

  /** One step of the bold replace where the pattern matches at `i`. */
  lemma {:induction false} EmboldenAt(s: string, i: nat, j: nat)
    requires i < |s| && BoldAt(s, i) == Some(j)
    ensures i + |Stars| <= j && j + |Stars| <= |s|
    ensures Embolden(s, i) == StrongOpen + s[i + |Stars|..j] + StrongClose + Embolden(s, j + |Stars|)
  {
    assert IndexOfFrom(s, Stars, i + |Stars|) == Some(j);
  }

  /** The bold replace of nothing is nothing. */
  lemma {:induction false} EmboldenEnd(s: string, e: nat)
    requires e == |s|
    ensures Embolden(s, e) == ""
  {
  }

  /** One step of the bold replace where the pattern does not match at `i`. */
  lemma {:induction false} EmboldenSkip(s: string, i: nat)
    requires i < |s| && BoldAt(s, i).None?
    ensures Embolden(s, i) == [s[i]] + Embolden(s, i + 1)
  {
  }

  /** Where the bold pattern matches nowhere from `i` up to `k`, the bold
      replace copies that stretch; single stars, as in a `* ` bullet, are
      copied too. */
  lemma {:induction false} EmboldenCopy(s: string, i: nat, k: nat)
    requires i <= k <= |s| && forall p :: i <= p < k ==> BoldAt(s, p).None?
    decreases k - i
    ensures Embolden(s, i) == s[i..k] + Embolden(s, k)
  {
    if i < k {
      assert BoldAt(s, i).None?;
      EmboldenCopy(s, i + 1, k);
      EmboldenCopyStep(s, i, k);
    }
  }

  /** One more copied character in front of a copied stretch. */
  lemma {:induction false} EmboldenCopyStep(s: string, i: nat, k: nat)
    requires i < k <= |s| && BoldAt(s, i).None?
    requires Embolden(s, i + 1) == s[i + 1..k] + Embolden(s, k)
    ensures Embolden(s, i) == s[i..k] + Embolden(s, k)
  {
    EmboldenSkip(s, i);
    SliceCons(s, i, k);
    ConsThenAppend(s[i], s[i + 1..k], Embolden(s, k), Embolden(s, i), Embolden(s, i + 1));
  }

  lemma {:induction false} ConsThenAppend(c: char, a: string, b: string, t: string, u: string)
    requires t == [c] + u && u == a + b
    ensures t == ([c] + a) + b
  {
  }

  /** Where the text from `o` on starts with `**x**`, `x` being on one line
      and holding no `**` that would close the pair earlier, the bold replace
      turns the pair into `<strong>x</strong>` and goes on after its closing
      `**` in the same text. Single stars inside `x`, as in `**a*b**`, are
      kept. */
  lemma {:induction false} EmboldenPairIn(s: string, o: nat, x: string)
    requires o + |x| + 2 * |Stars| <= |s|
    requires s[o..o + |x| + 2 * |Stars|] == Stars + x + Stars
    requires OnOneLine(x) && forall q :: o + |Stars| <= q < o + |Stars| + |x| ==> !OccursAt(s, Stars, q)
    ensures Embolden(s, o) == StrongOpen + x + StrongClose + Embolden(s, o + |x| + 2 * |Stars|)
  {
    var j := o + |Stars| + |x|;
    PairAt(s, o, x);
    EmboldenAt(s, o, j);
    assert j + |Stars| == o + |x| + 2 * |Stars|;
  }

  /** Where a stretch from `i` to `o` in which the bold pattern matches
      nowhere is followed by such a pair `**x**`, the bold replace copies the
      stretch, turns the pair into `<strong>x</strong>` and goes on after the
      pair, in the same text. */
  lemma {:induction false} EmboldenAround(s: string, i: nat, o: nat, x: string)
    requires i <= o && o + |x| + 2 * |Stars| <= |s|
    requires forall p :: i <= p < o ==> BoldAt(s, p).None?
    requires s[o..o + |x| + 2 * |Stars|] == Stars + x + Stars
    requires OnOneLine(x) && forall q :: o + |Stars| <= q < o + |Stars| + |x| ==> !OccursAt(s, Stars, q)
    ensures Embolden(s, i) == s[i..o] + StrongOpen + x + StrongClose + Embolden(s, o + |x| + 2 * |Stars|)
  {
    EmboldenCopy(s, i, o);
    EmboldenPairIn(s, o, x);
    PrefixThenParts(Embolden(s, i), s[i..o], Embolden(s, o), StrongOpen, x, StrongClose,
                    Embolden(s, o + |x| + 2 * |Stars|));
  }

  lemma {:induction false} PrefixThenParts(t: string, a: string, u: string, p: string, x: string, q: string, e: string)
    requires t == a + u && u == p + x + q + e
    ensures t == a + p + x + q + e
  {
  }

  /** A bullet line followed by a bold line: the bullet's star is kept and
      the pair becomes a `<strong>` element. */
  lemma {:induction false} BulletThenBold(s: string)
    requires s == "* a\n**b**"
    ensures Embolden(s, 0) == "* a\n<strong>b</strong>"
  {
    var e := 4 + |"b"| + 2 * |Stars|;
    BulletLayout(s, e);
    forall p | 0 <= p < 4 ensures BoldAt(s, p).None? {
      NoStarsAt(s, p, if p == 0 then 1 else p);
    }
    NoStarsAt(s, 6, 6);
    EmboldenAround(s, 0, 4, "b");
    EmboldenEnd(s, e);
  }

  lemma {:induction false} BulletLayout(s: string, e: nat)
    requires s == "* a\n**b**" && e == 4 + |"b"| + 2 * |Stars|
    ensures e == |s| && s[1] == ' ' && s[2] == 'a' && s[3] == '\n' && s[6] == 'b'
    ensures s[4..e] == Stars + "b" + Stars
    ensures s[0..4] + StrongOpen + "b" + StrongClose + "" == "* a\n<strong>b</strong>"
  {
    assert s[0..4] == "* a\n";
  }

  /** A single star inside a pair is kept inside the `<strong>` element. */
  lemma {:induction false} StarInsidePair(s: string)
    requires s == "**a*b**"
    ensures Embolden(s, 0) == "<strong>a*b</strong>"
  {
    var e := |"a*b"| + 2 * |Stars|;
    StarInsideLayout(s, e);
    forall q | |Stars| <= q < |Stars| + |"a*b"| ensures !OccursAt(s, Stars, q) {
      NoStarsAt(s, q, if q == 3 then 4 else q);
    }
    EmboldenPairIn(s, 0, "a*b");
    EmboldenEnd(s, e);
  }

  lemma {:induction false} StarInsideLayout(s: string, e: nat)
    requires s == "**a*b**" && e == |"a*b"| + 2 * |Stars|
    ensures e == |s| && s[2] == 'a' && s[4] == 'b' && OnOneLine("a*b")
    ensures s[0..e] == Stars + "a*b" + Stars
    ensures StrongOpen + "a*b" + StrongClose + "" == "<strong>a*b</strong>"
  {
  }

  /** `**` does not start at `p` when one of its two places holds another
      character. */
  lemma {:induction false} NoStarsAt(s: string, p: nat, k: nat)
    requires p <= k < p + |Stars| && k < |s| && s[k] != '*'
    ensures !OccursAt(s, Stars, p)
  {
    if p + |Stars| <= |s| {
      assert s[p..p + |Stars|][k - p] == s[k];
    }
  }

  /** A one-line pair without an inner `**` is a bold match whose inner text
      is `x`. */
  lemma {:induction false} PairAt(s: string, o: nat, x: string)
    requires o + |x| + 2 * |Stars| <= |s|
    requires s[o..o + |x| + 2 * |Stars|] == Stars + x + Stars
    requires OnOneLine(x) && forall q :: o + |Stars| <= q < o + |Stars| + |x| ==> !OccursAt(s, Stars, q)
    ensures BoldAt(s, o) == Some(o + |Stars| + |x|)
    ensures s[o + |Stars|..o + |Stars| + |x|] == x
  {
    var e := o + |Stars| + |x|;
    PairLayout(s, o, x);
    IndexOfFromFinds(s, Stars, o + |Stars|, e);
  }

  /** Where `**x**` stands at `o`, `**` occurs at both ends and `x` between. */
  lemma {:induction false} PairLayout(s: string, o: nat, x: string)
    requires o + |x| + 2 * |Stars| <= |s|
    requires s[o..o + |x| + 2 * |Stars|] == Stars + x + Stars
    ensures s[o + |Stars|..o + |Stars| + |x|] == x
    ensures OccursAt(s, Stars, o) && OccursAt(s, Stars, o + |Stars| + |x|)
  {
    var e := o + |Stars| + |x|;
    var p := Stars + x + Stars;
    assert s[o + |Stars|..e] == x by {
      SliceOfSlice(s, o, o + |p|, |Stars|, |Stars| + |x|);
      assert p[|Stars|..|Stars| + |x|] == x;
    }
    assert OccursAt(s, Stars, o) by {
      SliceOfSlice(s, o, o + |p|, 0, |Stars|);
      assert p[..|Stars|] == Stars;
    }
    assert OccursAt(s, Stars, e) by {
      SliceOfSlice(s, o, o + |p|, |Stars| + |x|, |p|);
      assert p[|Stars| + |x|..] == Stars;
    }
  }

  /** `s.replace(/\n/g, '<br>')`. */
  function NewlinesToBr(s: string): string {
    if s == [] then ""
    else (if s[0] == '\n' then Br else [s[0]]) + NewlinesToBr(s[1..])
  }

  /** The whole formatting chain of a reply. */
  function FormatReply(s: string): string {
    NewlinesToBr(Embolden(s, 0))
  }

  /** After the newline replace no newline is left. */
  lemma {:induction false} NewlinesToBrHasNoNewline(s: string)
    ensures '\n' !in NewlinesToBr(s)
  {
    if s != [] {
      NewlinesToBrHasNoNewline(s[1..]);
    }
  }

  /** Text without a newline is left as it is. */
  lemma {:induction false} NewlinesToBrUnchanged(s: string)
    requires '\n' !in s
    ensures NewlinesToBr(s) == s
  {
    if s != [] {
      assert s[0] != '\n' && s == [s[0]] + s[1..];
      NewlinesToBrUnchanged(s[1..]);
    }
  }

  /** The newline replace works piece by piece: it can be applied to the
      parts of a concatenation separately. */
  lemma {:induction false} NewlinesToBrAppend(a: string, b: string)
    ensures NewlinesToBr(a + b) == NewlinesToBr(a) + NewlinesToBr(b)
  {
    if a != [] {
      assert (a + b)[0] == a[0] && (a + b)[1..] == a[1..] + b;
      NewlinesToBrAppend(a[1..], b);
    } else {
      assert a + b == b;
    }
  }

  /** Newline-free text around a piece is left as it is. */
  lemma {:induction false} NewlinesToBrAround(a: string, x: string, b: string)
    requires '\n' !in a && '\n' !in b
    ensures NewlinesToBr(a + x + b) == a + NewlinesToBr(x) + b
  {
    NewlinesToBrAppend(a + x, b);
    NewlinesToBrAppend(a, x);
    NewlinesToBrUnchanged(a);
    NewlinesToBrUnchanged(b);
  }

  /** Each newline grows into the four characters of `<br>`. */
  lemma {:induction false} NewlinesToBrLength(s: string)
    ensures |NewlinesToBr(s)| == |s| + 3 * multiset(s)['\n']
  {
    if s != [] {
      assert s == [s[0]] + s[1..];
      assert multiset(s) == multiset([s[0]]) + multiset(s[1..]);
      NewlinesToBrLength(s[1..]);
    }
  }

  /** A formatted reply contains no newline. */
  lemma {:induction false} FormatReplyHasNoNewline(s: string)
    ensures '\n' !in FormatReply(s)
  {
    NewlinesToBrHasNoNewline(Embolden(s, 0));
  }

  /** Text without a bold match from `i` on is left as it is by the bold
      replace. */
  lemma {:induction false} EmboldenUnchanged(s: string, i: nat)
    requires i <= |s|
    requires forall p :: i <= p < |s| ==> BoldAt(s, p).None?
    decreases |s| - i
    ensures Embolden(s, i) == s[i..]
  {
    if i < |s| {
      assert BoldAt(s, i).None?;
      EmboldenUnchanged(s, i + 1);
      assert s[i..] == [s[i]] + s[i + 1..];
    }
  }

  /** Text without `*` is not touched by the bold replace, so its formatting
      only turns newlines into `<br>`; this is what happens to a diagram body
      spliced into the reply. */
  lemma {:induction false} FormatWithoutStars(s: string)
    requires '*' !in s
    ensures FormatReply(s) == NewlinesToBr(s)
  {
    forall p | 0 <= p < |s| ensures !OccursAt(s, Stars, p) {
      if p + |Stars| <= |s| {
        assert s[p..p + |Stars|][0] == s[p];
      }
    }
    EmboldenUnchanged(s, 0);
  }

  /** A `**x**` pair whose inner text has no `*` and stays on one line
      becomes `<strong>x</strong>`. */
  lemma {:induction false} EmboldenPair(x: string)
    requires '*' !in x && OnOneLine(x)
    ensures Embolden(Stars + x + Stars, 0) == StrongOpen + x + StrongClose
  {
    var s := Stars + x + Stars;
    var e := |x| + |Stars|;
    assert OccursAt(s, Stars, 0) && OccursAt(s, Stars, e);
    forall q | |Stars| <= q < e ensures !OccursAt(s, Stars, q) {
      assert s[q] == x[q - |Stars|];
    }
    IndexOfFromIsFirst(s, Stars, |Stars|);
    IndexOfFromFinds(s, Stars, |Stars|, e);
    assert s[|Stars|..e] == x;
    assert BoldAt(s, 0) == Some(e);
    assert Embolden(s, e + |Stars|) == "";
  }

  /** A `**x**` pair whose inner text has no `*` but crosses a line end is
      left as it is. */
  lemma {:induction false} EmboldenPairAcrossLines(x: string)
    requires '*' !in x && !OnOneLine(x)
    ensures Embolden(Stars + x + Stars, 0) == Stars + x + Stars
  {
    var s := Stars + x + Stars;
    var e := |x| + |Stars|;
    forall q | |Stars| <= q < e ensures !OccursAt(s, Stars, q) {
      assert s[q] == x[q - |Stars|];
    }
    IndexOfFromFinds(s, Stars, |Stars|, e);
    assert s[|Stars|..e] == x;
    forall p | 0 <= p < |s| ensures BoldAt(s, p).None? {
      if 0 < p && p != e && p + |Stars| <= |s| {
        NoStarPairAt(x, p);
      }
    }
    EmboldenUnchanged(s, 0);
  }

  /** In `**x**` with no `*` in a non-empty `x`, `**` stands only at the two
      ends. */
  lemma {:induction false} NoStarPairAt(x: string, p: nat)
    requires '*' !in x && x != []
    requires 0 < p < |x| + |Stars|
    ensures !OccursAt(Stars + x + Stars, Stars, p)
  {
    var s := Stars + x + Stars;
    if p == 1 {
      assert s[p + 1] == x[0];
    } else {
      assert s[p] == x[p - |Stars|];
    }
  }
}

=== FILE: keywords.dfy ===
/** The search word `fetchRelatedMedia` sends for a query: the query is
    split at every run of ideographic commas, full stops and white space, the
    pieces of one character or none are dropped, and the first piece left is
    the search word; with none left the whole query is searched for. */
module Keywords {
  import opened Strings

  /** A character of the class `[、。\s]`. */
  predicate IsSeparator(c: char) {
    c == '、' || c == '。' || IsJsSpace(c)
  }

  predicate NoSeparator(w: string) {
    forall j :: 0 <= j < |w| ==> !IsSeparator(w[j])
  }

  /** The first separator at or after `i`, or the end of `s`. */
  function NextSeparator(s: string, i: nat): (p: nat)
    requires i <= |s|
    decreases |s| - i
    ensures i <= p <= |s|
    ensures p < |s| ==> IsSeparator(s[p])
  {
    if i == |s| || IsSeparator(s[i]) then i else NextSeparator(s, i + 1)
  }

  /** The end of the run of separators starting at `i`. */
  function SkipRun(s: string, i: nat): (p: nat)
    requires i <= |s|
    decreases |s| - i
    ensures i <= p <= |s|
    ensures p < |s| ==> !IsSeparator(s[p])
  {
    if i == |s| || !IsSeparator(s[i]) then i else SkipRun(s, i + 1)
  }

  /** `s.split(/[、。\s]+/)` from position `i` on: the pieces between the
      maximal runs of separators, the empty piece before a leading run and
      after a trailing one included. */
  function SplitRuns(s: string, i: nat): (r: seq<string>)
    requires i <= |s|
    decreases |s| - i
    ensures |r| >= 1
  {
    var p := NextSeparator(s, i);
    if p == |s| then [s[i..]] else [s[i..p]] + SplitRuns(s, SkipRun(s, p))
  }

  /** `.filter(w => w.length > 1)`. */
  function LongWords(ws: seq<string>): (r: seq<string>)
    ensures |r| <= |ws|
  {
    if ws == [] then []
    else (if |ws[0]| > 1 then [ws[0]] else []) + LongWords(ws[1..])
  }

  function Keywords(query: string): seq<string> {
    LongWords(SplitRuns(query, 0))
  }

  /** `keywords[0] || query`. */
  function ChooseKeyword(query: string): string {
    var ks := Keywords(query);
    if ks == [] then query else ks[0]
  }

  /** The query with every separator deleted: a reference for what the pieces
      of the split hold between them. */
  function DropSeparators(t: string): string {
    if t == [] then "" else (if IsSeparator(t[0]) then "" else [t[0]]) + DropSeparators(t[1..])
  }

  function Concat(ws: seq<string>): string {
    if ws == [] then "" else ws[0] + Concat(ws[1..])
  }

  /** The pieces hold no separator. */
  lemma {:induction false} SplitRunsPieces(s: string, i: nat)
    requires i <= |s|
    decreases |s| - i
    ensures forall w :: w in SplitRuns(s, i) ==> NoSeparator(w)
  {
    var p := NextSeparator(s, i);
    BeforeSeparator(s, i);
    if p < |s| {
      SplitRunsPieces(s, SkipRun(s, p));
    }
  }

  /** Put together, the pieces are the query with its separators deleted:
      no character is lost or invented. */
  lemma {:induction false} SplitRunsConcat(s: string, i: nat)
    requires i <= |s|
    decreases |s| - i, 1
    ensures Concat(SplitRuns(s, i)) == DropSeparators(s[i..])
  {
    var p := NextSeparator(s, i);
    BeforeSeparator(s, i);
    DropNoSeparator(s[i..p]);
    if p == |s| {
      assert s[i..p] == s[i..];
      assert SplitRuns(s, i) == [s[i..]];
      assert Concat([s[i..]]) == s[i..] + Concat([]);
    } else {
      SplitRunsConcatStep(s, i, p);
    }
  }

  lemma {:induction false} SplitRunsConcatStep(s: string, i: nat, p: nat)
    requires i <= p < |s| && p == NextSeparator(s, i)
    requires DropSeparators(s[i..p]) == s[i..p]
    decreases |s| - i, 0
    ensures Concat(SplitRuns(s, i)) == DropSeparators(s[i..])
  {
    var q := SkipRun(s, p);
    SplitRunsConcat(s, q);
    DropRun(s, p);
    DropAfterPiece(s, i, p);
    ConcatSplitRuns(s, i, p);
  }

  /** A run of separators at `p` vanishes once separators are deleted. */
  lemma {:induction false} DropRun(s: string, p: nat)
    requires p <= |s|
    ensures DropSeparators(s[p..]) == DropSeparators(s[SkipRun(s, p)..])
  {
    var q := SkipRun(s, p);
    SkipRunDrops(s, p);
    assert s[p..] == s[p..q] + s[q..];
    DropSeparatorsAppend(s[p..q], s[q..]);
  }

  lemma {:induction false} DropAfterPiece(s: string, i: nat, p: nat)
    requires i <= p <= |s| && DropSeparators(s[i..p]) == s[i..p]
    ensures DropSeparators(s[i..]) == s[i..p] + DropSeparators(s[p..])
  {
    assert s[i..] == s[i..p] + s[p..];
    DropSeparatorsAppend(s[i..p], s[p..]);
  }

  /** The pieces before and after the first run of separators. */
  lemma {:induction false} ConcatSplitRuns(s: string, i: nat, p: nat)
    requires i <= p < |s| && p == NextSeparator(s, i)
    ensures Concat(SplitRuns(s, i)) == s[i..p] + Concat(SplitRuns(s, SkipRun(s, p)))
  {
    var rest := SplitRuns(s, SkipRun(s, p));
    assert SplitRuns(s, i) == [s[i..p]] + rest;
    assert ([s[i..p]] + rest)[1..] == rest;
  }

  /** No separator lies between `i` and the next separator. */
  lemma {:induction false} BeforeSeparator(s: string, i: nat)
    requires i <= |s|
    decreases |s| - i
    ensures NoSeparator(s[i..NextSeparator(s, i)])
  {
    if i < |s| && !IsSeparator(s[i]) {
      BeforeSeparator(s, i + 1);
      assert s[i..NextSeparator(s, i)] == [s[i]] + s[i + 1..NextSeparator(s, i + 1)];
    }
  }

  /** A run of separators leaves nothing once separators are deleted. */
  lemma {:induction false} SkipRunDrops(s: string, i: nat)
    requires i <= |s|
    decreases |s| - i
    ensures DropSeparators(s[i..SkipRun(s, i)]) == ""
  {
    if i < |s| && IsSeparator(s[i]) {
      SkipRunDrops(s, i + 1);
      var t := s[i..SkipRun(s, i)];
      assert t[0] == s[i] && t[1..] == s[i + 1..SkipRun(s, i + 1)];
    }
  }

  lemma {:induction false} DropSeparatorsAppend(a: string, b: string)
    decreases |a|
    ensures DropSeparators(a + b) == DropSeparators(a) + DropSeparators(b)
  {
    if a != [] {
      assert (a + b)[0] == a[0] && (a + b)[1..] == a[1..] + b;
      DropSeparatorsAppend(a[1..], b);
    } else {
      assert a + b == b;
    }
  }

  lemma {:induction false} DropNoSeparator(w: string)
    requires NoSeparator(w)
    decreases |w|
    ensures DropSeparators(w) == w
  {
    if w != [] {
      DropNoSeparator(w[1..]);
      assert w == [w[0]] + w[1..];
    }
  }

  /** The filter keeps exactly the words longer than one character. */
  lemma {:induction false} LongWordsSpec(ws: seq<string>)
    decreases |ws|
    ensures forall w :: w in LongWords(ws) <==> w in ws && |w| > 1
  {
    if ws != [] {
      LongWordsSpec(ws[1..]);
      assert ws == [ws[0]] + ws[1..];
    }
  }

  /** The search word is either the whole query or a piece of the split
      longer than one character, which holds no separator; a query with no
      separator that is longer than one character is searched for as it is. */
  lemma {:induction false} ChooseKeywordSpec(query: string)
    ensures var r := ChooseKeyword(query);
            r == query || (|r| > 1 && NoSeparator(r) && r in SplitRuns(query, 0))
    ensures NoSeparator(query) && |query| > 1 ==> ChooseKeyword(query) == query
  {
    var ks := Keywords(query);
    LongWordsSpec(SplitRuns(query, 0));
    SplitRunsPieces(query, 0);
    if ks != [] {
      assert ks[0] in ks;
    }
    if NoSeparator(query) {
      NoSeparatorOnePiece(query, 0);
      assert query[0..] == query;
    }
  }

  /** The filter keeps the order of the words: it works piece by piece. */
  lemma {:induction false} LongWordsAppend(a: seq<string>, b: seq<string>)
    decreases |a|
    ensures LongWords(a + b) == LongWords(a) + LongWords(b)
  {
    if a != [] {
      assert (a + b)[0] == a[0] && (a + b)[1..] == a[1..] + b;
      LongWordsAppend(a[1..], b);
    } else {
      assert a + b == b;
    }
  }

  /** The filter leaves nothing exactly when every word is at most one
      character long. */
  lemma {:induction false} LongWordsEmpty(ws: seq<string>)
    decreases |ws|
    ensures LongWords(ws) == [] <==> forall i :: 0 <= i < |ws| ==> |ws[i]| <= 1
  {
    if ws != [] {
      LongWordsEmpty(ws[1..]);
      assert forall i :: 1 <= i < |ws| ==> ws[i] == ws[1..][i - 1];
    }
  }

  /** No search word is found exactly when every piece of the split is at
      most one character long, and then the whole query is searched for. */
  lemma {:induction false} NoKeywordSearchesQuery(query: string)
    ensures var ws := SplitRuns(query, 0);
            Keywords(query) == [] <==> forall i :: 0 <= i < |ws| ==> |ws[i]| <= 1
    ensures Keywords(query) == [] ==> ChooseKeyword(query) == query
  {
    LongWordsEmpty(SplitRuns(query, 0));
  }

  /** The search word is the first piece of the split longer than one
      character. */
  lemma {:induction false} ChooseKeywordFirst(query: string, j: nat)
    requires var ws := SplitRuns(query, 0);
             j < |ws| && |ws[j]| > 1 && forall i :: 0 <= i < j ==> |ws[i]| <= 1
    ensures ChooseKeyword(query) == SplitRuns(query, 0)[j]
  {
    var ws := SplitRuns(query, 0);
    assert ws == ws[..j] + ([ws[j]] + ws[j + 1..]);
    LongWordsAppend(ws[..j], [ws[j]] + ws[j + 1..]);
    LongWordsAppend([ws[j]], ws[j + 1..]);
    LongWordsEmpty(ws[..j]);
    assert [ws[j]][1..] == [];
    assert LongWords([ws[j]]) == [ws[j]];
  }

  /** The runs of separators the split cuts at, in order. */
  function Gaps(s: string, i: nat): (r: seq<string>)
    requires i <= |s|
    decreases |s| - i
    ensures |r| + 1 == |SplitRuns(s, i)|
  {
    var p := NextSeparator(s, i);
    if p == |s| then [] else [s[p..SkipRun(s, p)]] + Gaps(s, SkipRun(s, p))
  }

  /** The pieces with the runs put back between them. */
  function Rejoin(ws: seq<string>, gs: seq<string>): string
    requires |ws| == |gs| + 1
    decreases |gs|
  {
    if gs == [] then ws[0] else ws[0] + gs[0] + Rejoin(ws[1..], gs[1..])
  }

  predicate AllSeparators(g: string) {
    forall j :: 0 <= j < |g| ==> IsSeparator(g[j])
  }

  /** Where the split cuts: the runs between the pieces are non-empty and
      made of separators only, and putting them back between the pieces
      gives the query. With SplitRunsPieces, which says the pieces hold no
      separator, this makes each run a maximal one. */
  lemma {:induction false} SplitRunsRejoin(s: string, i: nat)
    requires i <= |s|
    decreases |s| - i
    ensures forall g :: g in Gaps(s, i) ==> g != [] && AllSeparators(g)
    ensures Rejoin(SplitRuns(s, i), Gaps(s, i)) == s[i..]
  {
    var p := NextSeparator(s, i);
    if p < |s| {
      var q := SkipRun(s, p);
      SkipRunSeparators(s, p);
      SplitRunsRejoin(s, q);
      RejoinStep(s, i, p, q);
    } else {
      assert s[i..p] == s[i..];
    }
  }

  lemma {:induction false} RejoinStep(s: string, i: nat, p: nat, q: nat)
    requires i <= p < |s| && p == NextSeparator(s, i) && q == SkipRun(s, p)
    requires Rejoin(SplitRuns(s, q), Gaps(s, q)) == s[q..]
    ensures Rejoin(SplitRuns(s, i), Gaps(s, i)) == s[i..]
  {
    var ws, gs := SplitRuns(s, q), Gaps(s, q);
    assert SplitRuns(s, i) == [s[i..p]] + ws;
    assert Gaps(s, i) == [s[p..q]] + gs;
    assert ([s[i..p]] + ws)[1..] == ws && ([s[p..q]] + gs)[1..] == gs;
    SliceSplit(s, i, p, q);
  }

  lemma {:induction false} SliceSplit(s: string, i: nat, p: nat, q: nat)
    requires i <= p <= q <= |s|
    ensures s[i..] == s[i..p] + s[p..q] + s[q..]
  {
    assert s[i..] == s[i..p] + s[p..];
    assert s[p..] == s[p..q] + s[q..];
  }

  /** A run found by SkipRun from a separator is non-empty and all
      separators. */
  lemma {:induction false} SkipRunSeparators(s: string, p: nat)
    requires p < |s| && IsSeparator(s[p])
    ensures p < SkipRun(s, p)
    ensures AllSeparators(s[p..SkipRun(s, p)])
  {
    RunSeparators(s, p);
  }

  lemma {:induction false} RunSeparators(s: string, p: nat)
    requires p <= |s|
    decreases |s| - p
    ensures forall k :: p <= k < SkipRun(s, p) ==> IsSeparator(s[k])
  {
    if p < |s| && IsSeparator(s[p]) {
      RunSeparators(s, p + 1);
    }
  }

  /** Text without a separator is one piece. */
  lemma {:induction false} NoSeparatorOnePiece(s: string, i: nat)
    requires i <= |s| && NoSeparator(s)
    decreases |s| - i
    ensures NextSeparator(s, i) == |s| && SplitRuns(s, i) == [s[i..]]
  {
    if i < |s| {
      NoSeparatorOnePiece(s, i + 1);
    }
  }
}

=== FILE: registry.dfy ===
/** The global `chartInstances` map and the body of `renderChart`, run
    synchronously: parse the payload, look up the canvas, destroy the chart
    already drawn under the same id, then draw and register a new one. */
module Registry {
  import opened Strings
  import opened Charts

  /** A drawn Chart.js chart; all the model keeps of it is its configuration
      and whether `destroy` has been called on it. */
  class ChartInstance<J> {
    const config: Config<J>
    var live: bool

    constructor (config: Config<J>)
      ensures this.config == config && live
    {
      this.config := config;
      live := true;
    }

    method Destroy()
      modifies this
      ensures !live
    {
      live := false;
    }
  }

  /** The entry of `m` under `id` is the one `before` had, or still none. */
  predicate Kept<J>(m: map<string, ChartInstance<J>>, id: string, before: map<string, ChartInstance<J>>) {
    (id in m <==> id in before) && (id in before ==> m[id] == before[id])
  }

  /** `chartInstances`: the chart drawn on each canvas id. */
  class ChartRegistry<J> {
    var instances: map<string, ChartInstance<J>>

    /** No chart object is registered under two ids. */
    ghost predicate Distinct()
      reads this
    {
      forall a, b :: a in instances && b in instances && a != b ==> instances[a] != instances[b]
    }

    constructor ()
      ensures instances == map[] && Distinct()
    {
      instances := map[];
    }

    /** `renderChart(id, payload)`. `canvases` holds the ids of the canvases
        in the page and `accepts` says whether the Chart constructor succeeds
        on a configuration; when it throws, the `catch` swallows the error
        after the old chart has already been destroyed. */
    method RenderChart(id: string, payload: string, parse: string -> Option<seq<J>>,
                       canvases: set<string>, accepts: Config<J> -> bool)
      requires Distinct()
      modifies this, if id in instances then {instances[id]} else {}
      ensures Distinct()
      ensures forall k :: k != id ==> Kept(instances, k, old(instances))
      ensures ParseChart(payload, parse).Failure? || id !in canvases ==>
                instances == old(instances) && (id in instances ==> unchanged(instances[id]))
      ensures ParseChart(payload, parse).Ok? && id in canvases ==>
                var config := MakeConfig(ParseChart(payload, parse).value);
                && (id in old(instances) ==> !old(instances)[id].live)
                && if accepts(config) then
                     && id in instances && fresh(instances[id])
                     && instances[id].live && instances[id].config == config
                     && instances == old(instances)[id := instances[id]]
                   else
                     instances == old(instances)
      ensures forall k :: k in old(instances) && k != id ==> old(instances)[k].live == old(instances[k].live)
    {
      var r := ParsePayload(payload, parse);
      if r.Failure? || id !in canvases {
        return;
      }
      if id in instances {
        instances[id].Destroy();
      }
      var config := MakeConfig(r.value);
      if accepts(config) {
        var chart := new ChartInstance(config);
        instances := instances[id := chart];
      }
    }
  }
}

=== FILE: speech.dfy ===
/** The text handed to speech synthesis: `<…>` tags are removed first, then
    every "```…```" span. */
module Speech {
  import opened Strings
  import opened Extract

  /** `s.replace(/<[^>]*>/g, '')` from position `i` on: a `<` starts a tag
      when some `>` follows it, and the tag runs to the first such `>`. */
  function StripTags(s: string, i: nat): (r: string)
    requires i <= |s|
    decreases |s| - i
    ensures |r| <= |s| - i
  {
    if i == |s| then ""
    else if s[i] == '<' then
      match IndexOfFrom(s, ">", i + 1)
      case Some(j) => StripTags(s, j + 1)
      case None => [s[i]] + StripTags(s, i + 1)
    else [s[i]] + StripTags(s, i + 1)
  }

  /** `s.replace(/```[\s\S]*?```/g, '')` from position `i` on: a fence
      starts a span when another fence follows it, and the span runs to the
      end of the first such fence. */
  function StripFences(s: string, i: nat): (r: string)
    requires i <= |s|
    decreases |s| - i
    ensures |r| <= |s| - i
  {
    if i == |s| then ""
    else if OccursAt(s, Fence, i) then
      match IndexOfFrom(s, Fence, i + |Fence|)
      case Some(j) => StripFences(s, j + |Fence|)
      case None => [s[i]] + StripFences(s, i + 1)
    else [s[i]] + StripFences(s, i + 1)
  }

  /** The `cleanText` of `speakText`; it is never longer than the reply. */
  function CleanText(s: string): (r: string)
    ensures |r| <= |s|
  {
    StripFences(StripTags(s, 0), 0)
  }

  /** No `<` in `t` is followed, anywhere later, by a `>`. */
  ghost predicate NoTagPair(t: string) {
    forall a, b :: 0 <= a < b < |t| && t[a] == '<' ==> t[b] != '>'
  }

  /** After cleaning, no `<` is followed by a `>`: every such pair was a tag
      and went with the tag replace, and the fence replace only deletes. */
  lemma {:induction false} CleanTextHasNoTag(s: string)
    ensures NoTagPair(CleanText(s))
  {
    StripTagsHasNoTag(s, 0);
    var t := StripTags(s, 0);
    assert t[0..] == t;
    StripFencesKeepsNoTag(t, 0);
  }

  /** Text with neither `<` nor a backtick is spoken as it is. */
  lemma {:induction false} CleanTextUnchanged(s: string)
    requires '<' !in s && '`' !in s
    ensures CleanText(s) == s
  {
    TagsUnchanged(s, 0);
    FencesUnchanged(s, 0);
  }

  /** A leading tag is dropped from plain text after it. */
  lemma {:induction false} LeadingTagDropped(x: string, y: string)
    requires '>' !in x && '<' !in y && '`' !in y
    ensures CleanText("<" + x + ">" + y) == y
  {
    var s := "<" + x + ">" + y;
    var j := |x| + 1;
    assert s[j..j + 1] == ">";
    forall q | 1 <= q < j ensures !OccursAt(s, ">", q) {
      assert s[q] == x[q - 1];
    }
    IndexOfFromFinds(s, ">", 1, j);
    assert StripTags(s, 0) == StripTags(s, j + 1);
    assert s[j + 1..] == y;
    TagsUnchangedFrom(s, j + 1);
    FencesUnchanged(y, 0);
  }

  /** A span between two fences is dropped from what is spoken: with no `<`
      and no backtick outside the fences or between them, the cleaned text
      is the text before the span followed by the text after it. */
  lemma {:induction false} FenceSpanDropped(x: string, y: string, z: string)
    requires '`' !in x + y + z && '<' !in x + y + z
    ensures CleanText(x + Fence + y + Fence + z) == x + z
  {
    SpanLayout(x, y, z);
    CleanSpan(x + Fence + y + Fence + z, |x|, |x| + |y| + 2 * |Fence|, y);
  }

  /** The layout of `x + Fence + y + Fence + z`: `x` up front, the span in
      the middle and `z` at the end; no `<` anywhere. */
  lemma {:induction false} SpanLayout(x: string, y: string, z: string)
    requires '`' !in x + y + z && '<' !in x + y + z
    ensures var s := x + Fence + y + Fence + z;
            var e := |x| + |y| + 2 * |Fence|;
            && e <= |s| && s[0..|x|] == x && s[e..|s|] == z
            && s[|x|..e] == Fence + y + Fence
            && '<' !in s && '`' !in x && '`' !in y && '`' !in z
  {
    var s := x + Fence + y + Fence + z;
    assert forall c :: c in s ==> c in x + y + z || c in Fence;
  }

  /** In one text: a stretch up to `o` and a stretch after the span, both
      without a backtick, around a span `Fence + y + Fence`, with no `<`
      anywhere, are spoken as the two stretches. */
  lemma {:induction false} CleanSpan(s: string, o: nat, e: nat, y: string)
    requires e == o + |y| + 2 * |Fence| && e <= |s|
    requires s[o..e] == Fence + y + Fence
    requires '<' !in s && '`' !in y
    requires '`' !in s[0..o] && '`' !in s[e..|s|]
    ensures CleanText(s) == s[0..o] + s[e..|s|]
  {
    TagsUnchanged(s, 0);
    assert s[0..] == s;
    FencesCopy(s, 0, o);
    FenceSpanAt(s, o, e, y);
    FencesCopy(s, e, |s|);
    DropEmptyTail(StripFences(s, 0), s[0..o], StripFences(s, o), StripFences(s, e), s[e..|s|], StripFences(s, |s|));
  }

  lemma {:induction false} DropEmptyTail(a: string, x: string, b: string, c: string, z: string, d: string)
    requires a == x + b && b == c && c == z + d && d == ""
    ensures a == x + z
  {
  }

  /** Where the fence replace meets no backtick from `i` up to `k`, it copies
      that stretch. */
  lemma {:induction false} FencesCopy(s: string, i: nat, k: nat)
    requires i <= k <= |s| && '`' !in s[i..k]
    decreases k - i
    ensures StripFences(s, i) == s[i..k] + StripFences(s, k)
  {
    if i < k {
      assert s[i] == s[i..k][0];
      if i + |Fence| <= |s| {
        assert s[i..i + |Fence|][0] == s[i];
      }
      assert StripFences(s, i) == [s[i]] + StripFences(s, i + 1);
      SliceCons(s, i, k);
      FencesCopy(s, i + 1, k);
    }
  }

  /** Where the text from `o` on starts with a fence, a backtick-free `y` and
      a fence, the fence replace drops that whole span and goes on after
      it. */
  lemma {:induction false} FenceSpanAt(s: string, o: nat, e: nat, y: string)
    requires e == o + |y| + 2 * |Fence| && e <= |s|
    requires s[o..e] == Fence + y + Fence
    requires '`' !in y
    ensures StripFences(s, o) == StripFences(s, e)
  {
    var c := o + |Fence| + |y|;
    SpanFences(s, o, y);
    IndexOfFromFinds(s, Fence, o + |Fence|, c);
    StripFencesAt(s, o, c, e);
  }

  /** One step of the fence replace where a span starts at `o`. */
  lemma {:induction false} StripFencesAt(s: string, o: nat, c: nat, e: nat)
    requires o < |s| && OccursAt(s, Fence, o) && IndexOfFrom(s, Fence, o + |Fence|) == Some(c)
    requires e == c + |Fence|
    ensures StripFences(s, o) == StripFences(s, e)
  {
  }

  /** In `Fence + y + Fence` at `o`, with no backtick in `y`, fences stand
      at both ends and nowhere in between. */
  lemma {:induction false} SpanFences(s: string, o: nat, y: string)
    requires o + |y| + 2 * |Fence| <= |s|
    requires s[o..o + |y| + 2 * |Fence|] == Fence + y + Fence
    requires '`' !in y
    ensures o < |s| && OccursAt(s, Fence, o) && OccursAt(s, Fence, o + |Fence| + |y|)
    ensures forall q :: o + |Fence| <= q < o + |Fence| + |y| ==> !OccursAt(s, Fence, q)
  {
    var p := Fence + y + Fence;
    var c := o + |Fence| + |y|;
    assert OccursAt(s, Fence, o) by {
      SliceOfSlice(s, o, o + |p|, 0, |Fence|);
      assert p[..|Fence|] == Fence;
    }
    assert OccursAt(s, Fence, c) by {
      SliceOfSlice(s, o, o + |p|, |Fence| + |y|, |p|);
      assert p[|Fence| + |y|..] == Fence;
    }
    forall q | o + |Fence| <= q < c ensures !OccursAt(s, Fence, q) {
      assert s[q] == p[q - o] == y[q - o - |Fence|];
      if q + |Fence| <= |s| {
        assert s[q..q + |Fence|][0] == s[q];
      }
    }
  }

  lemma {:induction false} TagsUnchanged(s: string, i: nat)
    requires i <= |s| && '<' !in s
    decreases |s| - i
    ensures StripTags(s, i) == s[i..]
  {
    if i < |s| {
      TagsUnchanged(s, i + 1);
      assert s[i..] == [s[i]] + s[i + 1..];
    }
  }

  lemma {:induction false} TagsUnchangedFrom(s: string, i: nat)
    requires i <= |s| && '<' !in s[i..]
    decreases |s| - i
    ensures StripTags(s, i) == s[i..]
  {
    if i < |s| {
      assert s[i] == s[i..][0] && s[i + 1..] == s[i..][1..];
      TagsUnchangedFrom(s, i + 1);
    }
  }

  lemma {:induction false} FencesUnchanged(s: string, i: nat)
    requires i <= |s| && '`' !in s
    decreases |s| - i
    ensures StripFences(s, i) == s[i..]
  {
    if i < |s| {
      if i + |Fence| <= |s| {
        assert s[i..i + |Fence|][0] == s[i];
      }
      FencesUnchanged(s, i + 1);
      assert s[i..] == [s[i]] + s[i + 1..];
    }
  }

  /** Prepending a character keeps the property unless it is a `<` with a
      `>` after it. */
  lemma {:induction false} ConsNoTagPair(c: char, t: string)
    requires NoTagPair(t) && (c == '<' ==> '>' !in t)
    ensures NoTagPair([c] + t)
  {
    var u := [c] + t;
    forall a, b | 0 <= a < b < |u| && u[a] == '<' ensures u[b] != '>' {
      assert u[b] == t[b - 1];
      if a > 0 {
        assert u[a] == t[a - 1];
      }
    }
  }

  /** The tag replace leaves no `<` with a `>` after it. */
  lemma {:induction false} StripTagsHasNoTag(s: string, i: nat)
    requires i <= |s|
    decreases |s| - i
    ensures NoTagPair(StripTags(s, i))
  {
    if i < |s| {
      if s[i] == '<' {
        match IndexOfFrom(s, ">", i + 1)
        case Some(j) =>
          StripTagsHasNoTag(s, j + 1);
        case None =>
          StripTagsHasNoTag(s, i + 1);
          NoCloseAfter(s, i + 1);
          ConsNoTagPair(s[i], StripTags(s, i + 1));
      } else {
        StripTagsHasNoTag(s, i + 1);
        ConsNoTagPair(s[i], StripTags(s, i + 1));
      }
    }
  }

  /** Without a `>` from `i` on, the tag replace produces none. */
  lemma {:induction false} NoCloseAfter(s: string, i: nat)
    requires i <= |s| && IndexOfFrom(s, ">", i).None?
    decreases |s| - i
    ensures '>' !in StripTags(s, i)
  {
    IndexOfFromIsFirst(s, ">", i);
    if i < |s| {
      assert s[i..i + 1] == [s[i]] && s[i] != '>';
      IndexOfFromLater(s, ">", i);
      NoCloseAfter(s, i + 1);
    }
  }

  /** Searching from further on finds nothing when searching from `i` found
      nothing. */
  lemma {:induction false} IndexOfFromLater(s: string, pat: string, i: nat)
    requires IndexOfFrom(s, pat, i).None?
    ensures IndexOfFrom(s, pat, i + 1).None?
  {
    IndexOfFromIsFirst(s, pat, i);
  }

  /** The fence replace only deletes, so it keeps the property. */
  lemma {:induction false} StripFencesKeepsNoTag(t: string, i: nat)
    requires i <= |t| && NoTagPair(t[i..])
    decreases |t| - i
    ensures NoTagPair(StripFences(t, i))
  {
    if i < |t| {
      match (if OccursAt(t, Fence, i) then IndexOfFrom(t, Fence, i + |Fence|) else None)
      case Some(j) =>
        NoTagPairSuffix(t, i, j + |Fence|);
        StripFencesKeepsNoTag(t, j + |Fence|);
      case None =>
        NoTagPairSuffix(t, i, i + 1);
        StripFencesKeepsNoTag(t, i + 1);
        if t[i] == '<' {
          forall b | i < b < |t| ensures t[b] != '>' {
            assert t[i..][0] == '<' && t[i..][b - i] == t[b];
          }
          FencesKeepOut(t, i + 1, '>');
        }
        ConsNoTagPair(t[i], StripFences(t, i + 1));
    }
  }

  lemma {:induction false} NoTagPairSuffix(t: string, i: nat, k: nat)
    requires i <= k <= |t| && NoTagPair(t[i..])
    ensures NoTagPair(t[k..])
  {
    forall a, b | 0 <= a < b < |t| - k && t[k..][a] == '<' ensures t[k..][b] != '>' {
      assert t[k..][a] == t[i..][a + k - i] && t[k..][b] == t[i..][b + k - i];
    }
  }

  /** The fence replace introduces no character. */
  lemma {:induction false} FencesKeepOut(t: string, i: nat, c: char)
    requires i <= |t| && forall b :: i <= b < |t| ==> t[b] != c
    decreases |t| - i
    ensures c !in StripFences(t, i)
  {
    if i < |t| {
      match (if OccursAt(t, Fence, i) then IndexOfFrom(t, Fence, i + |Fence|) else None)
      case Some(j) =>
        FencesKeepOut(t, j + |Fence|, c);
      case None =>
        FencesKeepOut(t, i + 1, c);
    }
  }
}

=== FILE: strings.dfy ===
/** String helpers with the semantics of the JavaScript string methods the
    reply pipeline uses: trim, indexOf, split, replace (first occurrence) and
    the decimal rendering of a number inside a template literal. */
module Strings {

  datatype Option<+T> = None | Some(value: T)

  /** The characters JavaScript's `String.prototype.trim` removes and the
      regular-expression class `\s` matches: WhiteSpace and LineTerminator. */
  predicate IsJsSpace(c: char) {
    c in JsSpaces || '\U{2000}' <= c <= '\U{200A}'
  }

  const JsSpaces: set<char> := {
    '\t', '\n', '\U{B}', '\U{C}', '\r', ' ', '\U{A0}', '\U{1680}',
    '\U{2028}', '\U{2029}', '\U{202F}', '\U{205F}', '\U{3000}', '\U{FEFF}'
  }

  /** `pat` occurs in `s` starting at index `j`. */
  predicate OccursAt(s: string, pat: string, j: nat) {
    j + |pat| <= |s| && s[j..j + |pat|] == pat
  }

  /** `s.indexOf(pat, from)`, with "not found" as None. */
  function IndexOfFrom(s: string, pat: string, from: nat): (r: Option<nat>)
    decreases |s| - from
    ensures r.Some? ==> from <= r.value && OccursAt(s, pat, r.value)
  {
    if from + |pat| > |s| then None
    else if OccursAt(s, pat, from) then Some(from)
    else IndexOfFrom(s, pat, from + 1)
  }

  /** indexOf finds the first occurrence at or after `from`, and reports
      none only when there is none. */
  lemma {:induction false} IndexOfFromIsFirst(s: string, pat: string, from: nat)
    decreases |s| - from
    ensures var r := IndexOfFrom(s, pat, from);
            r.Some? ==> forall j :: from <= j < r.value ==> !OccursAt(s, pat, j)
    ensures IndexOfFrom(s, pat, from).None? ==> forall j: nat :: from <= j ==> !OccursAt(s, pat, j)
  {
    if from + |pat| <= |s| && !OccursAt(s, pat, from) {
      IndexOfFromIsFirst(s, pat, from + 1);
    }
  }

  /** When `pat` occurs at `e` and nowhere between `from` and `e`, indexOf
      from `from` finds `e`. */
  lemma {:induction false} IndexOfFromFinds(s: string, pat: string, from: nat, e: nat)
    requires from <= e && OccursAt(s, pat, e)
    requires forall q :: from <= q < e ==> !OccursAt(s, pat, q)
    ensures IndexOfFrom(s, pat, from) == Some(e)
  {
    IndexOfFromIsFirst(s, pat, from);
  }

  /** `s.trimStart()`. */
  function TrimStart(s: string): (r: string)
    ensures |r| <= |s|
  {
    if s != [] && IsJsSpace(s[0]) then TrimStart(s[1..]) else s
  }

  /** `s.trimEnd()`. */
  function TrimEnd(s: string): (r: string)
    ensures |r| <= |s|
  {
    if s != [] && IsJsSpace(s[|s| - 1]) then TrimEnd(s[..|s| - 1]) else s
  }

  /** trimStart keeps a suffix, cuts off only spaces, and stops at the first
      character that is not a space. */
  lemma {:induction false} TrimStartSpec(s: string)
    ensures var r := TrimStart(s);
            && r == s[|s| - |r|..]
            && (forall i :: 0 <= i < |s| - |r| ==> IsJsSpace(s[i]))
            && (r == [] || !IsJsSpace(r[0]))
  {
    if s != [] && IsJsSpace(s[0]) {
      TrimStartSpec(s[1..]);
    }
  }

  /** trimEnd keeps a prefix, cuts off only spaces, and stops at the last
      character that is not a space. */
  lemma {:induction false} TrimEndSpec(s: string)
    ensures var r := TrimEnd(s);
            && r == s[..|r|]
            && (forall i :: |r| <= i < |s| ==> IsJsSpace(s[i]))
            && (r == [] || !IsJsSpace(r[|r| - 1]))
  {
    if s != [] && IsJsSpace(s[|s| - 1]) {
      TrimEndSpec(s[..|s| - 1]);
    }
  }

  /** `s.trim()`: what remains after cutting the spaces off both ends. */
  function Trim(s: string): (r: string)
    ensures |r| <= |s|
  {
    TrimEnd(TrimStart(s))
  }

  /** Trimming keeps an infix of `s`, cuts off only spaces, leaves no space
      at either end, and leaves alone a string with no space at either end. */
  lemma {:induction false} TrimSpec(s: string)
    ensures var r, a := Trim(s), |s| - |TrimStart(s)|;
            && a + |r| <= |s| && r == s[a..a + |r|]
            && (forall i :: 0 <= i < a ==> IsJsSpace(s[i]))
            && (forall i :: a + |r| <= i < |s| ==> IsJsSpace(s[i]))
            && (r == [] || (!IsJsSpace(r[0]) && !IsJsSpace(r[|r| - 1])))
    ensures (s == [] || (!IsJsSpace(s[0]) && !IsJsSpace(s[|s| - 1]))) ==> Trim(s) == s
  {
    var t := TrimStart(s);
    var r := TrimEnd(t);
    var a := |s| - |t|;
    TrimStartSpec(s);
    TrimEndSpec(t);
    assert r == t[..|r|];
    SliceOfSlice(s, a, |s|, 0, |r|);
    forall i | a + |r| <= i < |s| ensures IsJsSpace(s[i]) {
      assert s[i] == t[i - a];
    }
    if r != [] {
      assert r[0] == t[0];
    }
  }

  /** `s.split(sep)` for a one-character separator: the pieces between
      consecutive occurrences, empty pieces included. */
  function SplitOn(s: string, sep: char): (r: seq<string>)
    decreases |s|
    ensures |r| >= 1
  {
    match IndexOfFrom(s, [sep], 0)
    case None => [s]
    case Some(p) => [s[..p]] + SplitOn(s[p + 1..], sep)
  }

  /** No piece holds the separator, and joining the pieces with it gives
      back the string. */
  lemma {:induction false} SplitOnSpec(s: string, sep: char)
    decreases |s|
    ensures var r := SplitOn(s, sep);
            && (forall i :: 0 <= i < |r| ==> sep !in r[i])
            && JoinWith(r, sep) == s
  {
    IndexOfFromIsFirst(s, [sep], 0);
    match IndexOfFrom(s, [sep], 0)
    case None =>
      NoSingleOccurrence(s, sep, 0, |s|);
    case Some(p) =>
      NoSingleOccurrence(s, sep, 0, p);
      SplitOnSpec(s[p + 1..], sep);
      assert s[p..p + 1] == [sep];
      var r := SplitOn(s, sep);
      assert r[1..] == SplitOn(s[p + 1..], sep);
      assert s == s[..p] + [sep] + s[p + 1..];
  }

  /** A slice in which the one-character string `[c]` occurs nowhere does not
      contain `c`. */
  lemma {:induction false} NoSingleOccurrence(s: string, c: char, a: nat, b: nat)
    requires a <= b <= |s|
    requires forall j :: a <= j < b ==> !OccursAt(s, [c], j)
    ensures c !in s[a..b]
  {
    forall j | a <= j < b ensures s[j] != c {
      assert !OccursAt(s, [c], j) && s[j..j + 1] == [s[j]];
    }
    assert forall k :: 0 <= k < b - a ==> s[a..b][k] == s[a + k];
  }

  /** `pieces.join(sep)`. */
  function JoinWith(pieces: seq<string>, sep: char): string
    requires |pieces| >= 1
  {
    if |pieces| == 1 then pieces[0] else pieces[0] + [sep] + JoinWith(pieces[1..], sep)
  }

  /** `s.split(sep)[1]` when `sep` occurs in `s`: the text after the first
      occurrence of `sep`, up to the next occurrence found after it. */
  function SecondField(s: string, sep: string): (r: string)
    requires |sep| > 0 && IndexOfFrom(s, sep, 0).Some?
    ensures |r| <= |s|
  {
    FieldFrom(s, sep, IndexOfFrom(s, sep, 0).value + |sep|)
  }

  /** The text from `b` up to the next occurrence of `sep`, or to the end. */
  function FieldFrom(s: string, sep: string, b: nat): (r: string)
    requires b <= |s|
    ensures |r| <= |s| - b
  {
    match IndexOfFrom(s, sep, b)
    case Some(q) => s[b..q]
    case None => s[b..]
  }

  /** `r` is the text of `s` from `b` up to the next `sep` or, without one,
      to the end: no `sep` starts inside it, none lies in it, and a `sep` or
      the end of `s` follows it. */
  ghost predicate IsField(s: string, sep: string, b: nat, r: string) {
    && b + |r| <= |s| && r == s[b..b + |r|]
    && (forall j :: b <= j < b + |r| ==> !OccursAt(s, sep, j))
    && (forall j: nat :: !OccursAt(r, sep, j))
    && (b + |r| == |s| || OccursAt(s, sep, b + |r|))
  }

  /** The second field is the text from the end of the first separator up to
      the next separator or the end. */
  lemma {:induction false} SecondFieldSpec(s: string, sep: string)
    requires |sep| > 0 && IndexOfFrom(s, sep, 0).Some?
    ensures IsField(s, sep, IndexOfFrom(s, sep, 0).value + |sep|, SecondField(s, sep))
  {
    var b := IndexOfFrom(s, sep, 0).value + |sep|;
    assert b <= |s|;
    FieldFromSpec(s, sep, b);
    assert SecondField(s, sep) == FieldFrom(s, sep, b);
  }

  /** The field starting at `b` runs to the next separator or the end. */
  lemma {:induction false} FieldFromSpec(s: string, sep: string, b: nat)
    requires |sep| > 0 && b <= |s|
    ensures IsField(s, sep, b, FieldFrom(s, sep, b))
  {
    IndexOfFromIsFirst(s, sep, b);
    match IndexOfFrom(s, sep, b)
    case Some(q) =>
      assert FieldFrom(s, sep, b) == s[b..q] && q == b + (q - b);
      NoSeparatorInSlice(s, sep, b, q);
    case None =>
      assert FieldFrom(s, sep, b) == s[b..|s|] && |s| == b + (|s| - b);
      NoSeparatorInSlice(s, sep, b, |s|);
  }

  /** A slice of `s` inside which `sep` does not start holds no `sep`. */
  lemma {:induction false} NoSeparatorInSlice(s: string, sep: string, b: nat, e: nat)
    requires b <= e <= |s|
    requires forall x :: b <= x && x + |sep| <= e ==> !OccursAt(s, sep, x)
    ensures forall j: nat :: !OccursAt(s[b..e], sep, j)
  {
    forall j: nat | OccursAt(s[b..e], sep, j) ensures false {
      SliceOfSlice(s, b, e, j, j + |sep|);
      assert OccursAt(s, sep, b + j);
    }
  }

  /** A character absent from `s` is absent from its trimmed form. */
  lemma {:induction false} TrimKeepsOut(s: string, c: char)
    requires c !in s
    ensures c !in Trim(s)
  {
    TrimSpec(s);
    var r, a := Trim(s), |s| - |TrimStart(s)|;
    forall j | 0 <= j < |r| ensures r[j] != c {
      assert r[j] == s[a + j];
    }
  }

  lemma {:induction false} SliceOfSlice(s: string, a: nat, b: nat, c: nat, d: nat)
    requires a <= b <= |s| && c <= d <= b - a
    ensures s[a..b][c..d] == s[a + c..a + d]
  {
    assert forall k :: 0 <= k < d - c ==> s[a..b][c..d][k] == s[a + c..a + d][k];
  }

  lemma {:induction false} SliceCons(s: string, i: nat, k: nat)
    requires i < k <= |s|
    ensures s[i..k] == [s[i]] + s[i + 1..k]
  {
    assert forall q :: 0 <= q < k - i ==> s[i..k][q] == ([s[i]] + s[i + 1..k])[q];
  }

  /** `s.replace(pat, rep)` with a string pattern: only the first occurrence
      is replaced; without an occurrence `s` is returned as it is. */
  function ReplaceFirst(s: string, pat: string, rep: string): (r: string)
    ensures (forall j: nat :: !OccursAt(s, pat, j)) ==> r == s
    ensures forall p: nat ::
              OccursAt(s, pat, p) && (forall j: nat :: j < p ==> !OccursAt(s, pat, j)) ==>
                p <= |r| && r[..p] == s[..p] && r[p..] == rep + s[p + |pat|..]
  {
    IndexOfFromIsFirst(s, pat, 0);
    match IndexOfFrom(s, pat, 0)
    case None => s
    case Some(p) => s[..p] + rep + s[p + |pat|..]
  }

  function DigitChar(d: nat): char
    requires d < 10
  {
    "0123456789"[d]
  }

  function DigitValue(c: char): nat {
    if '0' <= c <= '9' then (c as int - '0' as int) as nat else 0
  }

  /** Decimal rendering of a natural number, as `${n}` produces it. */
  function Dec(n: nat): (r: string)
    ensures |r| >= 1
  {
    if n < 10 then [DigitChar(n)] else Dec(n / 10) + [DigitChar(n % 10)]
  }

  /** A decimal rendering holds digits only. */
  lemma {:induction false} DecDigits(n: nat)
    ensures forall j :: 0 <= j < |Dec(n)| ==> '0' <= Dec(n)[j] <= '9'
  {
    if n >= 10 {
      DecDigits(n / 10);
      assert Dec(n) == Dec(n / 10) + [DigitChar(n % 10)];
    }
  }

  /** Reads a string of decimal digits back as a number. */
  function ParseDec(s: string): nat {
    if s == [] then 0 else ParseDec(s[..|s| - 1]) * 10 + DigitValue(s[|s| - 1])
  }

  lemma {:induction false} ParseDecOfDec(n: nat)
    ensures ParseDec(Dec(n)) == n
  {
    var d := Dec(n);
    assert DigitValue(DigitChar(n % 10)) == n % 10;
    if n >= 10 {
      assert d[..|d| - 1] == Dec(n / 10);
      ParseDecOfDec(n / 10);
    }
  }

  /** Distinct numbers render as distinct decimal strings. */
  lemma {:induction false} DecInjective(m: nat, n: nat)
    requires Dec(m) == Dec(n)
    ensures m == n
  {
    ParseDecOfDec(m);
    ParseDecOfDec(n);
  }
}

=== FILE: voice.dfy ===
/** The voice-input toggle: the microphone button starts recognition, the
    stop button (or the same button while recording) stops it, and the
    buttons and the input placeholder follow the `isRecording` flag. */
module Voice {
  const SpeakPrompt: string := "🎤 話してください..."
  const IdlePrompt: string := "メッセージを入力..."
  const Unsupported: string := "⚠️ このブラウザは音声認識に対応していません"

  class VoiceInput {
    /** Whether the browser offers speech recognition (`recognition` is not
        null). */
    const hasRecognition: bool
    var isRecording: bool
    /** Whether `recognition.start()` has been called without a later
        `recognition.stop()`. */
    var listening: bool
    var voiceButtonShown: bool
    var stopButtonShown: bool
    var placeholder: string
    /** The alerts shown so far. */
    var alerts: seq<string>

    /** The page agrees with the flag: the microphone is listening, the stop
        button is shown and the placeholder asks to speak exactly while
        recording, and there is no recording without recognition. */
    ghost predicate Valid()
      reads this
    {
      && (isRecording ==> hasRecognition)
      && listening == isRecording
      && stopButtonShown == isRecording
      && voiceButtonShown == !isRecording
      && placeholder == (if isRecording then SpeakPrompt else IdlePrompt)
    }

    /** The idle page with or without recognition support. */
    constructor (hasRecognition: bool)
      ensures Valid() && !isRecording && this.hasRecognition == hasRecognition && alerts == []
    {
      this.hasRecognition := hasRecognition;
      isRecording := false;
      listening := false;
      voiceButtonShown := true;
      stopButtonShown := false;
      placeholder := IdlePrompt;
      alerts := [];
    }

    /** `stopVoiceInput`: stops the recognition if it is recording and puts
        the page back in its idle state. */
    method StopVoiceInput()
      modifies this
      ensures !isRecording && voiceButtonShown && !stopButtonShown && placeholder == IdlePrompt
      ensures listening == (old(listening) && !(hasRecognition && old(isRecording)))
      ensures alerts == old(alerts)
      ensures old(Valid()) ==> Valid()
    {
      if hasRecognition && isRecording {
        listening := false;
      }
      isRecording := false;
      voiceButtonShown := true;
      stopButtonShown := false;
      placeholder := IdlePrompt;
    }

    /** `startVoiceInput`: without recognition it only alerts; while
        recording it stops; otherwise it starts recording. */
    method StartVoiceInput()
      modifies this
      ensures !hasRecognition ==>
                && alerts == old(alerts) + [Unsupported]
                && isRecording == old(isRecording) && listening == old(listening)
                && voiceButtonShown == old(voiceButtonShown) && stopButtonShown == old(stopButtonShown)
                && placeholder == old(placeholder)
      ensures hasRecognition && old(isRecording) ==>
                && !isRecording && !listening && voiceButtonShown && !stopButtonShown
                && placeholder == IdlePrompt && alerts == old(alerts)
      ensures hasRecognition && !old(isRecording) ==>
                && isRecording && listening && !voiceButtonShown && stopButtonShown
                && placeholder == SpeakPrompt && alerts == old(alerts)
      ensures old(Valid()) ==> Valid() && isRecording == (hasRecognition && !old(isRecording))
    {
      if !hasRecognition {
        alerts := alerts + [Unsupported];
        return;
      }
      if isRecording {
        StopVoiceInput();
        return;
      }
      isRecording := true;
      voiceButtonShown := false;
      stopButtonShown := true;
      placeholder := SpeakPrompt;
      listening := true;
    }
  }
}
